=== FILE: README.md ===
# Instrumentation runtime and instruction `Result`, in Dafny

This project models two parts of the Dyninst/Paradyn code base and proves properties of the models.

**The POSIX instrumentation runtime** (`rtinst/src/RTetc-posix.c`). This is the library the monitored program carries. It has:
- nestable process and wall timers, which are read by reports that may interrupt a stop half-way;
- the framer that writes trace records to the daemon, and its "pipe gone" latch;
- the alarm tick, which drops reentrant calls and samples every N-th tick;
- the message-tag registry;
- the integer bookkeeping of initialisation, fork and the exit summary.

**The instruction API's `Result`** (`instructionAPI/h/Result.h`), restricted to its integer and bit-flag variants. It covers:
- both constructors, including the truncation to the tag's width;
- `operator==` and `size()`;
- `format()`: "[empty]", then "0x" and hexadecimal digits.

The model has these modules:

| module | file | contents |
|---|---|---|
| `Basics` | `basics.dfy` | the `Outcome` of an entry point (`Ok` or `Aborted(reason)` for each `abort()`), clock readings, bytes |
| `Arith` | `arith.dfy` | facts about division and remainder |
| `Text` | `text.dfy` | `printf("%d")` and `atoi` |
| `Timers` | `timers.dfy` | start, stop (its five stores as separate steps), report value and monotonicity guard |
| `Trace` | `trace.dfy` | word alignment, record headers, the framer and its channel |
| `Wire` | `wire.dfy` | the byte layout of a record, and that a reader recovers a stream |
| `Tags` | `tags.dfy` | the tag table and the new-tag report |
| `Runtime` | `runtime.dfy` | the agent's static state and the entry points that use it |
| `InstructionResult` | `result.dfy` | `Result` |

How the environment enters the model:
- Every clock reading, every `fwrite` outcome and every `sigaction`/`setitimer` result is a parameter of the operation that meets it.
- `getenv("DYNINSTsampleInterval")` is an `Option<string>` parameter.
- The sizes that the headers `rtinst/h/trace.h` and `rtinst/h/rtinst.h` fix are positive fields of a `Layout` value: `ALIGN_TO_WORDSIZE`'s word, `traceStream`, `traceHeader` and each record body. Those headers are not part of this model.

## Model

| member | source | states |
|---|---|---|
| `Timers.Start` | rtinst/src/RTetc-posix.c:108-115 | Process and wall start: only the outermost start sets `start` to the clock and `normalize` to one million; every start adds one to `counter`. Nothing else changes. |
| `Timers.StopPrefix` | rtinst/src/RTetc-posix.c:131-138 | The timer after the first k of the outermost stop's five stores (snapshot, raise mutex, clear counter, total, lower mutex), field by field. |
| `Timers.Stop` | rtinst/src/RTetc-posix.c:125-148 | Stopping an idle timer changes nothing. An inner stop only decrements `counter`. The outermost stop leaves `counter` 0 and the mutex down, with `snapShot = now1 - start + total` and `total = now2 - start + total`. It aborts exactly when `now1 < start`. With `start <= now1 <= now2`: new total >= snapshot >= old total. |
| `Timers.CheckedReport` | rtinst/src/RTetc-posix.c:645-672 | A value below `lastValue` aborts, and only such a value does. Otherwise the value becomes `lastValue`, so `lastValue` never decreases, and nothing else changes. |
| `Timers.ReportValue` | rtinst/src/RTetc-posix.c:629-643 | The value a report reads: the snapshot while a stop holds the mutex; while the timer runs, the closed total plus the time since the outermost start; when idle, the closed total. |
| `Timers.ReportReadsWhatStopWouldWrite` | rtinst/src/RTetc-posix.c:629-643 | On a running outermost timer, a report reads exactly the total that a stop with the same clock reading would write. Once stopped, the timer reads that total at any clock. |
| `Timers.NestedPairIsTransparent` | rtinst/src/RTetc-posix.c:108-148 | A nested start/stop pair inside an outer interval is invisible: the outer stop sees exactly what the outer start left. |
| `Timers.InterruptedStopReadsCoherentValue` | rtinst/src/RTetc-posix.c:629-643 | A report run after any prefix of the stop's stores reads one of three values: the running extrapolation before the mutex is raised, the snapshot while it is up, or the new total after. It never reads the stale total. |
| `Timers.InterruptedStopReadIsBounded` | rtinst/src/RTetc-posix.c:131-143 | With ordered clock readings, such an interrupting read lies between the old total and the new one. |
| `Timers.InterruptedStopKeepsReportsMonotone` | rtinst/src/RTetc-posix.c:134-138 | One interrupting report neither aborts nor leaves `lastValue` above the total the stop then writes. |
| `Timers.TwoInterruptsInOneStopCanRegress` | rtinst/src/RTetc-posix.c:132-135 | A concrete case with ordered clocks and two reports interrupting one stop: a report between the snapshot store and the mutex, then one while the mutex is up. The second report aborts with "time regressed". |
| `Timers.RunReportsNeverDecrease` | rtinst/src/RTetc-posix.c:645-674 | Over any sequence of starts, stops and reports that completes, the published values never decrease. |
| `Timers.StepKeepsCoherent` | rtinst/src/RTetc-posix.c:108-148 | A start, stop or report whose readings do not run backwards succeeds. It leaves the timer coherent at its last reading: no stop in progress, a running interval that started no later, and a `lastValue` not above what a report would read then. |
| `Timers.MonotoneClockNeverAborts` | rtinst/src/RTetc-posix.c:140-143 | With a clock that never runs backwards, no sequence of timer operations aborts, neither by rollback nor by regression. |
| `Timers.BackwardClockAborts` | rtinst/src/RTetc-posix.c:140-143 | An outermost stop whose first reading lies before the start aborts with a rollback. A report on a running timer whose extrapolated value falls below the last one aborts with a regression. |
| `Timers.IntervalsAccumulate` | rtinst/src/RTetc-posix.c:131-137 | Closed start/stop intervals add up: total = old total + sum of (second stop reading - start reading), and the counter is 0 again. |
| `Timers.ReportsDoNotDisturbAccumulation` | rtinst/src/RTetc-posix.c:645-674 | A run whose reports all succeed ends in the same timer as the same run with the reports left out, except for `lastValue`. Reports change nothing that start and stop use. |
| `Timers.IntervalsAccumulateAcrossReports` | rtinst/src/RTetc-posix.c:108-148 | Closed start/stop intervals add up to the same total, with the counter back at 0, whatever non-aborting reports are interleaved with them. |
| `Trace.AlignUp` | rtinst/src/RTetc-posix.c:412 | `ALIGN_TO_WORDSIZE`: a multiple of the word, at least n and less than n + word; n itself when already aligned. |
| `Trace.AlignUpIsLeast` | rtinst/src/RTetc-posix.c:424 | The aligned size is the least multiple of the word that covers n. |
| `Trace.FrameFor` | rtinst/src/RTetc-posix.c:409-415 | The header: wall time since the wall origin, CPU time, the record type, and a stored length that is the body size rounded up to a word. |
| `Trace.Generate` | rtinst/src/RTetc-posix.c:405-440 | A call on a gone channel does nothing. Otherwise the channel is open afterwards. A successful write appends exactly this record. A failed write appends nothing and sets the gone latch. |
| `Trace.GenerateAllOnGone` | rtinst/src/RTetc-posix.c:405-407 | Once gone, every later series of calls leaves the channel unchanged. |
| `Trace.GenerateAllAppendsPrefix` | rtinst/src/RTetc-posix.c:434-440 | A series of calls appends, in order, a prefix of the records it was asked to send, and nothing else. |
| `Trace.GenerateAllGoneIffFailure` | rtinst/src/RTetc-posix.c:434-440 | A live channel ends gone exactly when one of the series' writes failed. |
| `Trace.GenerateAllCountsRecords` | rtinst/src/RTetc-posix.c:434 | While the channel stays live, each call adds exactly one record. |
| `Trace.GenerateAllSendsAll` | rtinst/src/RTetc-posix.c:434-440 | When every write succeeds, every record is sent, in order. |
| `Wire.Encode` | rtinst/src/RTetc-posix.c:417-426 | The stream id comes first and the header right after it. The payload starts at the word-aligned offset after both and is copied for its aligned length. The total size is align(id + header) + align(length), a whole number of words. |
| `Wire.DecodeOneEncode` | rtinst/src/RTetc-posix.c:417-426 | A reader that takes the payload length from the header recovers the record and the bytes after it. |
| `Wire.StreamRoundTrip` | rtinst/src/RTetc-posix.c:417-434 | The bytes of any sequence of records read back, record by record, as the ids, headers and aligned payloads written. |
| `Wire.StreamIsWordAligned` | rtinst/src/RTetc-posix.c:424-426 | A stream is a whole number of words long, so every record in it starts word-aligned. |
| `Wire.FramedRecordIsWellFormed` | rtinst/src/RTetc-posix.c:412-426 | Take the header `Trace.FrameFor` builds, and an encoding of that one header that has the header size and reads back its stored length. The stored length equals the aligned length the payload is copied for. So the record is well formed, and a reader recovers that header and that much of the body. |
| `Wire.SampleRecordDecodes` | rtinst/src/RTetc-posix.c:412-426 | An instance that meets those conditions: eight-byte words, a 12-byte sample body and a one-byte header holding the stored length 16. A reader takes the record off the stream with all 16 payload bytes and leaves the rest. |
| `Tags.RecordTag` | rtinst/src/RTetc-posix.c:781-791 | The linear scan equals the reference definition `Tags.Recorded`: a known tag changes nothing; a new tag is appended at the end; a full table (1000 tags) aborts. |
| `Tags.RecordedKeepsValid` | rtinst/src/RTetc-posix.c:785-790 | Recording keeps the table free of duplicates, at most 1000 long, and at least as long as the announced count. |
| `Tags.RecordedIsIdempotent` | rtinst/src/RTetc-posix.c:785-787 | Recording a tag twice is recording it once. |
| `Tags.RecordedKeepsOrder` | rtinst/src/RTetc-posix.c:790 | The old table is a prefix of the new one: insertion order is kept. |
| `Tags.TagNameIdentifiesTag` | rtinst/src/RTetc-posix.c:811 | The resource name is "SyncObject/MsgTag/" followed by digits that `atoi` reads back as the tag. |
| `Tags.NewTagBodies` | rtinst/src/RTetc-posix.c:809-815 | One resource body ("SyncObject/MsgTag/<tag>", "BASE") for each of `tags[lastTagCount..tagCount)`, in order. |
| `Tags.ReportNewTags` | rtinst/src/RTetc-posix.c:803-817 | The loop produces exactly `tagCount - lastTagCount` bodies, those of `Tags.NewTagBodies`, and then sets `lastTagCount` to `tagCount`. |
| `Tags.ReportedTagsAreNotRepeated` | rtinst/src/RTetc-posix.c:809-816 | After a report, the next one announces only the tag recorded in between, and nothing if that tag was already known. |
| `Runtime.InitialAgent` | rtinst/src/RTetc-posix.c:499-553 | The static initialisers: `sampleMultiple` is 1. Every counter, total and clock reference is 0. `in_sample` is clear. The channel is neither open nor gone and holds no record. The elapsed timers are idle with zero totals. The tag table is empty with nothing announced (lines 777-779 and 806). |
| `Runtime.ReportTimer` | rtinst/src/RTetc-posix.c:623-676 | Reads the timer's clock and aborts with "time regressed" exactly when the guard fails. Otherwise it stores `lastValue`, counts one more sample, and frames one sample record (id, raw value, `normalize`) on stream 0. |
| `Runtime.ReportCounter` | rtinst/src/RTetc-posix.c:829-838 | Counts one more sample and frames one sample record with the counter's id and value, unscaled. Nothing else changes. |
| `Runtime.ReportBaseTramps` | rtinst/src/RTetc-posix.c:458-483 | Frames a cost record whose pause time is wall time elapsed minus CPU time used since the last one; the readings become the new reference. |
| `Runtime.PauseTimesTelescope` | rtinst/src/RTetc-posix.c:471-480 | The pause times of successive cost records sum to the wall time minus the CPU time elapsed since the first reference point. |
| `Runtime.EnterTick` | rtinst/src/RTetc-posix.c:511-517 | Entering a tick raises `in_sample` and counts one alarm expiry and one sampled tick. |
| `Runtime.SampleWork` | rtinst/src/RTetc-posix.c:517-531 | The sampling work counts one report, frames one cost record, and adds the CPU time it took to the handler time. |
| `Runtime.AlarmExpire` | rtinst/src/RTetc-posix.c:504-534 | A tick during another tick changes nothing; a zero multiple is a division by zero. Otherwise the tick counts one alarm and one sampled tick and clears `in_sample` on exit. The sampling work runs exactly when the new count is a multiple of `sampleMultiple`. When it does not run, nothing else changes. When it runs, it counts one report, frames the cost record with the pause time since the last one, moves the reference clocks to the cost record's readings, and adds the handler's CPU time to `totalSampleTime`. Nothing else changes. |
| `Runtime.ReentrantTickIsDropped` | rtinst/src/RTetc-posix.c:511-514 | A tick that interrupts another tick, before or after its sampling work, leaves every counter alone. |
| `Runtime.TicksDecimate` | rtinst/src/RTetc-posix.c:516-517 | Of k non-overlapping ticks starting after m, the work runs (m+k)/N - m/N times; alarms and sampled ticks grow by k. |
| `Runtime.IntervalSetting` | rtinst/src/RTetc-posix.c:581-585 | The alarm period is 500000 µs when the variable is unset. When it is set, the period is `atoi` of its text reduced modulo 2^32, since it is stored in an unsigned 32-bit variable. |
| `Runtime.IntervalFromDecimal` | rtinst/src/RTetc-posix.c:582-585 | A variable holding a decimal number below 2^32 installs exactly that period. |
| `Runtime.IntervalWithoutDigits` | rtinst/src/RTetc-posix.c:583-585 | A variable with no digits installs a period of 0, not the default. |
| `Runtime.Configure` | rtinst/src/RTetc-posix.c:563-593 | Init up to the timers. A failing sigaction or setitimer aborts. Otherwise the wall origin is 0 and the cost reference is the calibration reading. The period is the configured one, and the agent stops itself once unless `doskip`. Every other field stays as it was: the timers, channel, tags, `sampleMultiple`, the tick and sample counters, and `in_sample`. |
| `Runtime.InitAsWritten` | rtinst/src/RTetc-posix.c:555-597 | As written, init succeeds exactly when sigaction and setitimer do. It applies the configuration of `Runtime.Configure`, then calls start on the elapsed wall and CPU timers in whatever state they are in, so each counter grows by one. Nothing else changes. |
| `Runtime.InitCorrected` | rtinst/src/RTetc-posix.c:555-597 | Corrected init (see Findings). It differs from the code only where the elapsed timers already run. It succeeds exactly when sigaction and setitimer do, and applies the configuration of `Runtime.Configure`. The elapsed wall and CPU timers then run from this call's readings with zero totals. Nothing else changes. |
| `Runtime.InitAgreesOnFreshProcess` | rtinst/src/RTetc-posix.c:552-553 | In a process whose timers are still as static storage holds them, the corrected init and the as-written one agree. |
| `Runtime.InitDiffersOnRunningTimers` | rtinst/src/RTetc-posix.c:595-596 | When the elapsed wall timer already runs, the as-written init nests it to depth 2 or more. The corrected init restarts it at depth 1. |
| `Runtime.ForkCorrected` | rtinst/src/RTetc-posix.c:688-704 | Fork with the corrected init (see Findings). For pid > 0 it frames one fork record (own pid, pid, 1, 0) and changes nothing else, as the code does. Any other pid re-runs the corrected init without the self-stop. |
| `Runtime.ForkAsWritten` | rtinst/src/RTetc-posix.c:701-703 | The same with the as-written init. |
| `Runtime.ParentForkFramesOneRecord` | rtinst/src/RTetc-posix.c:694-700 | On a live channel with a successful write, the parent branch appends exactly one record, of type fork. |
| `Runtime.ExitStatsOf` | rtinst/src/RTetc-posix.c:731-744 | The exit summary's integer fields, read from the live state: alarms, reports, samples, the elapsed totals, handler time, the period, and zero ticks. |
| `Runtime.Shutdown` | rtinst/src/RTetc-posix.c:716-765 | Stops the CPU timer, then the wall timer, and aborts exactly when one of those stops aborts. Otherwise it frames an exit record with the summary of the stopped state. Every other field, including the counters the summary reads, is left as it was. |
| `Runtime.ChildExitStatsAsWritten` | rtinst/src/RTetc-posix.c:701-703 | As written, a forked child that re-initialises and exits reports the totals its parent had at the fork, whatever its own clocks read. Its elapsed timers stay running. |
| `Runtime.ChildOfFreshProcessReportsNothing` | rtinst/src/RTetc-posix.c:723-738 | As written, a child of a freshly initialised process reports 0 CPU and 0 wall time at exit. |
| `Runtime.ChildExitStatsMeasureChild` | rtinst/src/RTetc-posix.c:595-596 | With the corrected init, the child's summary holds the time from its re-initialisation to its exit, and both timers are stopped. |
| `Runtime.RecordTag` | rtinst/src/RTetc-posix.c:781-791 | Tag recording on the agent succeeds exactly when the reference definition does, and changes only the registry. |
| `Runtime.ReportNewTags` | rtinst/src/RTetc-posix.c:803-817 | Frames the new-tag bodies on stream 0 through the framer, in table order, marks them reported, and changes nothing else. |
| `InstructionResult.Undefined` | instructionAPI/h/Result.h:122-128 | The type-only constructor yields that type, undefined, with zeroed storage. |
| `InstructionResult.Truncate` | instructionAPI/h/Result.h:142-180 | Conversion to the tag's field: the stored value is in the field's range and congruent to the argument modulo 2^width. |
| `InstructionResult.Defined` | instructionAPI/h/Result.h:134-191 | The value constructor yields that type, defined, with the value reduced to the tag's width. The bit flag holds 1 exactly when the argument is non-zero. |
| `InstructionResult.DefinedKeepsRepresentable` | instructionAPI/h/Result.h:142-180 | A value the field can hold is stored unchanged. |
| `InstructionResult.ModulusMatchesBits` | instructionAPI/h/Result.h:45-57 | The modulus of each tag is 2 to the width of its union field. |
| `InstructionResult.Equals` | instructionAPI/h/Result.h:201-259 | Different tags are unequal. Different `defined` flags are unequal. Two undefined results of one tag are equal. |
| `InstructionResult.DefinedEqualIffCongruent` | instructionAPI/h/Result.h:207-247 | Two constructed results of one tag are equal exactly when their arguments are congruent modulo 2^width (for the bit flag: both zero or both non-zero). |
| `InstructionResult.EqualsIsEquivalence` | instructionAPI/h/Result.h:201-247 | `==` is reflexive, symmetric and transitive on the results the constructors build. |
| `InstructionResult.EqualsIsIdentity` | instructionAPI/h/Result.h:195-206 | On those results, `==` holds exactly when type, flag and value coincide. |
| `InstructionResult.Size` | instructionAPI/h/Result.h:328-361 | `size()` is 1, 2, 4, 6 or 8 bytes for the 8-, 16-, 32-, 48- and 64-bit tags (8 × size = width); 1 for the bit flag; 512 for m512; 8 for dbl128. |
| `InstructionResult.ValueFitsInSize` | instructionAPI/h/Result.h:327-346 | Every value an integer result holds fits in `size()` bytes. |
| `InstructionResult.FormatAsWritten` | instructionAPI/h/Result.h:262-326 | As written: "[empty]" for an undefined result; otherwise "0x" followed by more text. |
| `InstructionResult.BitFlagFormatsAsControlCharacter` | instructionAPI/h/Result.h:305-306 | As written, a set bit flag formats as "0x" then the character U+0001, and a clear one as "0x" then NUL. Neither is a hexadecimal digit. |
| `InstructionResult.Format` | instructionAPI/h/Result.h:262-326 | "[empty]" for an undefined result; otherwise "0x" followed only by hexadecimal digits. It agrees with the as-written format on every tag but the bit flag. |
| `InstructionResult.BitFlagFormatsAsDigit` | instructionAPI/h/Result.h:305-306 | The corrected bit-flag format is "0x1" or "0x0". |
| `InstructionResult.FormatRoundTrip` | instructionAPI/h/Result.h:270-313 | The digits after "0x" read back as the printed number. Signed tags print in the width of the stream overload they select. |
| `InstructionResult.PrintedValue` | instructionAPI/h/Result.h:274-313 | The number the stream prints. Unsigned values and non-negative signed values print as stored. A negative signed value prints modulo the width of the overload it selects: 2^64 for `s8` (cast to `long`), `s48` and `s64`, 2^32 for `s32` and 2^16 for `s16`. |
| `InstructionResult.PrintedValueInjective` | instructionAPI/h/Result.h:274-313 | Distinct values of one tag print as distinct numbers. |
| `InstructionResult.FormatAgreesWithEquals` | instructionAPI/h/Result.h:262-326 | Two defined results of one tag format alike exactly when `==` holds. |

## Left out

- Floating point:
  - the sample value's division by `normalize` (the model carries the raw value and the divisor);
  - the observed cost;
  - the cycles-per-second calibration (`DYNINSTcyclesPerSecond`, with its inline `nop` loop) and `DYNINSTcyclesToUsec`;
  - the sampling rate;
  - the instrumentation time and cycle count of the exit summary;
  - the conversion of times to seconds. Summary times stay in integer microseconds.
- `DYNINSTreportCost`: it compares doubles.
- The `sp_float`, `dp_float`, `m512` and `dbl128` values of `Result`: their constructors, their comparison and their formatting. `m512` compares by `memcmp` through a pointer. `dbl128` construction and comparison are unimplemented assertions; a precondition excludes them.
- `Result::operator+`: it is only declared.
- The "[ERROR: invalid type value!]" and "Invalid type!" branches: the model's tag type has no values outside the enumeration.
- Code defined elsewhere enters only through parameters or not at all:
  - `DYNINSTos_init`;
  - the clock functions, which are parameters;
  - `DYNINSTgetObservedCycles`.
- `DYNINSTsampleValues` is replaced by instrumented code at run time. The model uses its default body, which only counts itself.
- Operating-system effects:
  - The self-stop (`kill(SIGSTOP)`) is only counted.
  - `sigaction` and `setitimer` are modelled only by their result. The setitimer outcome is a parameter, so the model does not say which periods the kernel rejects (for example a `tv_usec` of 1000000 or more).
  - `printf`/`perror` diagnostics are left out.
  - The `stats.out` file is left out.
  - `fdopen(dup(...))` is modelled only as the channel's open flag.
  - `fflush` and the `flush` argument are left out.
  - `fwrite` is modelled as a success flag per write.
- Signal concurrency: each entry point runs atomically. The exceptions are the stop's five stores, at which a report may interrupt, and the `in_sample` latch, which a tick that arrives during another tick's sampling work meets. `DYNINSTpauseProcess` and `DYNINSTcontinueProcess` (a volatile busy-wait) are left out. So are the empty `saveFPUstate`/`restoreFPUstate`.
- Machine integer widths:
  - the `int` counters (alarms, sampled ticks, reports, samples, tag count) wrapping at 2^31;
  - 64-bit `time64` overflow;
  - `atoi` overflow, which C leaves undefined; the model reads the mathematical value;
  - the `short length` argument of the framer.
- The 1024-byte stack buffer of the framer: a record larger than that overflows it in C. The model has no such limit.
- Between the header and the payload, C leaves the buffer uninitialised; `Wire.Encode` writes zeros there.
- `Wire.Encode` and `Wire.FramedRecordIsWellFormed`:
  - `data` stands for the memory from `eventData` on.
  - C copies the body's size rounded up to a word. For a body whose size is not a multiple of the word, that copy reads up to word-1 bytes past the body object, which C leaves undefined.
  - The model assumes those bytes are readable: its precondition asks `data` to hold the aligned length.
- The encodings of `traceStream` and `traceHeader` are not modelled; they appear as byte strings of the layout's sizes.
- The test print functions (`DYNINSTsimplePrint` and similar) and `DYNINSTexit` have no effect to model.
- `dynutil/h/dyntypes.h` holds only typedefs and macros, with no behaviour.

Where the code differs from what its comments and documentation describe, the model follows the code:
- An unparsable `DYNINSTsampleInterval` installs a period of 0 (`atoi` returns 0), not the default 500000.
- A negative value wraps to a large unsigned period.
- `DYNINSTfork` re-runs init for every pid that is not positive, so a failed fork (-1) re-initialises the parent too.
- `size()` is 8 for `dbl128` and 512 for `m512`. Both are kept as written, although the header describes `dbl128` as a 128-bit value.
- The `Result` model assumes a signed `char` and a 64-bit `long`. Its printed widths follow from that: an `s8` is printed through `long`, so -1 prints as sixteen `f`s.

## Findings

| source | as written | input that shows it | evidently intended | confidence | as-written member | corrected member |
|---|---|---|---|---|---|---|
| rtinst/src/RTetc-posix.c:701-703 | In the child, `DYNINSTfork` re-runs `DYNINSTinit`. Init calls start on the elapsed CPU and wall timers the child inherited running from its parent, which nests them to depth 2. At exit the single stop only unwinds them and never writes their totals. | A process initialises and forks; the child (pid 0) exits. Its exit summary reports 0 CPU time and 0 wall time, whatever the clocks read. | The child's elapsed timers restart, so that its summary measures the child from its re-initialisation to its exit. | medium, not executed | `Runtime.ChildOfFreshProcessReportsNothing` | `Runtime.ChildExitStatsMeasureChild` |
| instructionAPI/h/Result.h:305-306 | `ret << val.bitval` streams an `unsigned char` bit-field. That selects the character overload, so the flag is written as a raw character. | `Result(bit_flag, 1).format()` gives "0x" then U+0001. A clear flag gives "0x" then NUL. | "0x1" or "0x0": the 8-bit fields are cast to integers at lines 273-279 for exactly this reason. | high, not executed | `InstructionResult.BitFlagFormatsAsControlCharacter` | `InstructionResult.BitFlagFormatsAsDigit` |


=== FILE: arith.dfy ===
/** Facts about Euclidean division the word alignment, the alarm tick's
    decimation and the integer truncations rest on. */
module Arith {

  lemma MulAtLeast(d: int, w: int)
    requires d >= 1 && w > 0
    ensures d * w >= w
  {
  }

  /** Division and remainder are determined by the equation they satisfy. */
  lemma DivModUnique(x: int, n: int, q: int, r: int)
    requires n > 0 && x == q * n + r && 0 <= r < n
    ensures x / n == q && x % n == r
  {
    var q1 := x / n;
    var r1 := x % n;
    assert x == q1 * n + r1;
    if q != q1 {
      var d := q - q1;
      assert d * n == r1 - r;
      if d >= 1 {
        MulAtLeast(d, n);
      } else {
        assert (-d) * n == r - r1;
        MulAtLeast(-d, n);
      }
    }
  }

  lemma MultipleMod(q: int, w: int)
    requires w > 0
    ensures (q * w) % w == 0
  {
    DivModUnique(q * w, w, q, 0);
  }

  /** Numbers whose difference is a multiple of m leave the same remainder. */
  lemma SameResidue(x: int, y: int, m: int)
    requires m > 0 && (x - y) % m == 0
    ensures x % m == y % m
  {
    var k := (x - y) / m;
    assert x - y == k * m + (x - y) % m;
    var q := y / m;
    assert y == q * m + y % m;
    assert x == (q + k) * m + y % m;
    DivModUnique(x, m, q + k, y % m);
  }

  /** Numbers with the same remainder differ by a multiple of m. */
  lemma ResidueDifference(x: int, y: int, m: int)
    requires m > 0 && x % m == y % m
    ensures (x - y) % m == 0
  {
    var a := x / m;
    var b := y / m;
    assert x == a * m + x % m;
    assert y == b * m + y % m;
    assert x - y == (a - b) * m;
    MultipleMod(a - b, m);
  }

  /** The only multiple of m strictly between -m and m is 0. */
  lemma SmallMultipleIsZero(d: int, m: int)
    requires m > 0 && -m < d < m && d % m == 0
    ensures d == 0
  {
    var k := d / m;
    assert d == k * m + d % m;
    if k >= 1 {
      MulAtLeast(k, m);
    } else if k <= -1 {
      MulAtLeast(-k, m);
    }
  }
}

=== FILE: basics.dfy ===
/** Vocabulary shared by the instrumentation runtime model: the fatal
    paths of the agent, clock readings and bytes. */
module Basics {

  /** Why the agent called abort(). Each case is one fatal path of the runtime. */
  datatype AbortReason =
    | TimerRollback      // an outermost stop read a clock earlier than the timer's start
    | TimeRegressed      // a report computed a value below the value reported last
    | TagLimitReached    // a new tag arrived while the tag table was full
    | DivideByZero       // the sample multiple was zero when the alarm tick divided by it
    | SignalSetupFailed  // sigaction for the alarm signal failed during init
    | AlarmSetupFailed   // setitimer failed during init

  /** Either the next state of the agent or the reason it aborted. */
  datatype Outcome<+T> = Ok(value: T) | Aborted(reason: AbortReason) {

    predicate IsFailure() {
      Aborted?
    }

    function PropagateFailure<U>(): (r: Outcome<U>)
      requires Aborted?
    {
      Aborted(reason)
    }

    function Extract(): (v: T)
      requires Ok?
    {
      value
    }
  }

  datatype Option<+T> = None | Some(value: T)

  /** Readings of the process-CPU clock and of the wall clock, in microseconds. */
  datatype Clocks = Clocks(cpu: int, wall: int)

  type Byte = b: int | 0 <= b < 256

  type Positive = n: int | n > 0 witness 1
}

=== FILE: result.dfy ===
/** The tagged value an instruction-API expression evaluates to, restricted
    to its integer and bit variants: construction (which truncates the value
    to the tag's width), equality, size in bytes and hexadecimal formatting.

    The union's field for a tag is modelled as the integer that field holds:
    unsigned fields in [0, 2^n), signed fields in two's complement range
    [-2^(n-1), 2^(n-1)), the bit field in {0, 1}. Assumes a signed `char`
    and 64-bit `long`, as on the x86-64 targets the decoder serves. */
module InstructionResult {
  import opened Arith

  datatype ResultType =
    | U8 | S8 | U16 | S16 | U32 | S32 | U64 | S64
    | SpFloat | DpFloat | BitFlag | S48 | U48 | M512 | Dbl128

  /** The variants this model covers beyond the type-only constructor. */
  predicate IsInteger(t: ResultType) {
    !(t.SpFloat? || t.DpFloat? || t.M512? || t.Dbl128?)
  }

  predicate IsSigned(t: ResultType) {
    t.S8? || t.S16? || t.S32? || t.S64? || t.S48?
  }

  /** Width in bits of the field a tag selects. */
  function Bits(t: ResultType): (n: nat)
    requires IsInteger(t)
  {
    match t
    case U8 => 8 case S8 => 8
    case U16 => 16 case S16 => 16
    case U32 => 32 case S32 => 32
    case U64 => 64 case S64 => 64
    case U48 => 48 case S48 => 48
    case BitFlag => 1
  }

  /** Number of distinct values the field holds. */
  function Modulus(t: ResultType): (m: int)
    requires IsInteger(t)
  {
    match t
    case U8 => 0x100 case S8 => 0x100
    case U16 => 0x1_0000 case S16 => 0x1_0000
    case U32 => 0x1_0000_0000 case S32 => 0x1_0000_0000
    case U64 => 0x1_0000_0000_0000_0000 case S64 => 0x1_0000_0000_0000_0000
    case U48 => 0x1_0000_0000_0000 case S48 => 0x1_0000_0000_0000
    case BitFlag => 2
  }

  function Pow2(n: nat): (p: int) {
    if n == 0 then 1 else 2 * Pow2(n - 1)
  }

  /** The literal moduli are the powers of two the widths call for. */
  lemma ModulusMatchesBits(t: ResultType)
    requires IsInteger(t)
    ensures Modulus(t) == Pow2(Bits(t))
  {
    assert Pow2(8) == 0x100;
    assert Pow2(16) == Pow2(8) * Pow2(8) by { Pow2Add(8, 8); }
    assert Pow2(32) == Pow2(16) * Pow2(16) by { Pow2Add(16, 16); }
    assert Pow2(48) == Pow2(32) * Pow2(16) by { Pow2Add(32, 16); }
    assert Pow2(64) == Pow2(32) * Pow2(32) by { Pow2Add(32, 32); }
  }

  lemma {:induction false} Pow2Add(a: nat, b: nat)
    ensures Pow2(a + b) == Pow2(a) * Pow2(b)
    decreases a
  {
    if a > 0 {
      Pow2Add(a - 1, b);
    }
  }

  /** The values the field of a tag can hold. */
  predicate InRange(t: ResultType, x: int)
    requires IsInteger(t)
  {
    if t.BitFlag? then 0 <= x < 2
    else if IsSigned(t) then -Modulus(t) / 2 <= x < Modulus(t) / 2
    else 0 <= x < Modulus(t)
  }

  datatype Result = Result(rtype: ResultType, defined: bool, val: int)

  /** Results the two constructors can build: an undefined one of any tag,
      whose storage is zeroed, or a defined integer one holding an in-range value. */
  predicate WellFormed(r: Result) {
    && (!r.defined ==> r.val == 0)
    && (r.defined ==> IsInteger(r.rtype) && InRange(r.rtype, r.val))
  }

  /** The type-only constructor: a result of that type with no value. */
  function Undefined(t: ResultType): (r: Result)
    ensures r.rtype == t && !r.defined && WellFormed(r)
  {
    Result(t, false, 0)
  }

  /** An integer converted to an n-bit unsigned type, then (for signed
      tags) reinterpreted in two's complement. */
  function Truncate(t: ResultType, v: int): (x: int)
    requires IsInteger(t) && !t.BitFlag?
    ensures InRange(t, x)
    ensures (x - v) % Modulus(t) == 0
  {
    var n := Modulus(t);
    var m := v % n;
    assert v == (v / n) * n + m;
    if IsSigned(t) && m >= n / 2 then
      assert m - n - v == (-(v / n) - 1) * n;
      MultipleMod(-(v / n) - 1, n);
      m - n
    else
      assert m - v == (-(v / n)) * n;
      MultipleMod(-(v / n), n);
      m
  }

  /** The value constructor: the value is converted to the tag's field type;
      for the bit flag, any non-zero value is stored as 1. */
  function Defined(t: ResultType, v: int): (r: Result)
    requires IsInteger(t)
    ensures r.rtype == t && r.defined && WellFormed(r)
    ensures t.BitFlag? ==> (r.val == 1 <==> v != 0)
    ensures !t.BitFlag? ==> (r.val - v) % Modulus(t) == 0
  {
    if t.BitFlag? then Result(t, true, if v != 0 then 1 else 0)
    else Result(t, true, Truncate(t, v))
  }

  /** A value the field can already hold is stored unchanged. */
  lemma DefinedKeepsRepresentable(t: ResultType, v: int)
    requires IsInteger(t) && InRange(t, v)
    ensures Defined(t, v).val == v
  {
  }

  /** operator==. Comparing two defined results of the same non-integer tag
      is outside this model (floating point, a raw memory compare, or an
      unimplemented assertion for dbl128). */
  function Equals(a: Result, b: Result): (r: bool)
    requires !(a.rtype == b.rtype && a.defined && b.defined && !IsInteger(a.rtype))
    ensures a.rtype != b.rtype ==> !r
    ensures a.defined != b.defined ==> !r
    ensures a.rtype == b.rtype && !a.defined && !b.defined ==> r
  {
    if a.rtype != b.rtype then false
    else if a.defined != b.defined then false
    else if !a.defined then true
    else a.val == b.val
  }

  /** Two values are the same to a tag when its constructor cannot tell them apart. */
  predicate Congruent(t: ResultType, v: int, w: int)
    requires IsInteger(t)
  {
    if t.BitFlag? then (v != 0) == (w != 0) else (v - w) % Modulus(t) == 0
  }

  /** Constructed results of the same tag are equal exactly when their values are congruent for the tag. */
  lemma DefinedEqualIffCongruent(t: ResultType, v: int, w: int)
    requires IsInteger(t)
    ensures Equals(Defined(t, v), Defined(t, w)) <==> Congruent(t, v, w)
  {
    if !t.BitFlag? {
      var m := Modulus(t);
      var x := Defined(t, v).val;
      var y := Defined(t, w).val;
      SameResidue(x, v, m);
      SameResidue(y, w, m);
      if x == y {
        ResidueDifference(v, w, m);
      } else if (v - w) % m == 0 {
        SameResidue(v, w, m);
        ResidueDifference(x, y, m);
        SmallMultipleIsZero(x - y, m);
      }
    }
  }

  /** == is an equivalence on the results the constructors build. */
  lemma EqualsIsEquivalence(a: Result, b: Result, c: Result)
    requires WellFormed(a) && WellFormed(b) && WellFormed(c)
    ensures Equals(a, a)
    ensures Equals(a, b) == Equals(b, a)
    ensures Equals(a, b) && Equals(b, c) ==> Equals(a, c)
  {
  }

  /** On well-formed results, == is structural equality. */
  lemma EqualsIsIdentity(a: Result, b: Result)
    requires WellFormed(a) && WellFormed(b)
    ensures Equals(a, b) <==> a == b
  {
  }

  /** size(): bytes of the contained type. */
  function Size(t: ResultType): (s: int)
    ensures IsInteger(t) && !t.BitFlag? ==> 8 * s == Bits(t)
    ensures t.BitFlag? ==> s == 1
    ensures t.SpFloat? ==> s == 4
    ensures t.DpFloat? ==> s == 8
    ensures t.M512? ==> s == 512
    ensures t.Dbl128? ==> s == 8
  {
    match t
    case U8 => 1 case S8 => 1
    case U16 => 2 case S16 => 2
    case U32 => 4 case S32 => 4
    case U64 => 8 case S64 => 8
    case U48 => 6 case S48 => 6
    case SpFloat => 4
    case DpFloat => 8
    case BitFlag => 1
    case M512 => 512
    case Dbl128 => 8
  }

  /** Every value an integer result holds fits in size() bytes. */
  lemma ValueFitsInSize(r: Result)
    requires WellFormed(r) && r.defined
    ensures var bytes := Size(r.rtype); Bits(r.rtype) <= 8 * bytes
    ensures -Pow2(8 * Size(r.rtype)) / 2 <= r.val < Pow2(8 * Size(r.rtype))
  {
    ModulusMatchesBits(r.rtype);
    if r.rtype.BitFlag? {
      assert Pow2(8) == 256;
    }
  }

  // ---------------------------------------------------------------------
  // Formatting

  function HexChar(d: int): (c: char)
    requires 0 <= d < 16
  {
    if d < 10 then ('0' as int + d) as char else ('a' as int + d - 10) as char
  }

  predicate IsHexDigit(c: char) {
    '0' <= c <= '9' || 'a' <= c <= 'f'
  }

  function HexValue(c: char): (d: int)
    requires IsHexDigit(c)
    ensures 0 <= d < 16 && HexChar(d) == c
  {
    if c <= '9' then c as int - '0' as int else c as int - 'a' as int + 10
  }

  /** What std::hex writes for a non-negative value: lower-case digits, no leading zero. */
  function HexDigits(n: nat): (s: string)
    ensures 1 <= |s|
    ensures forall i :: 0 <= i < |s| ==> IsHexDigit(s[i])
    decreases n
  {
    if n < 16 then [HexChar(n)] else HexDigits(n / 16) + [HexChar(n % 16)]
  }

  function ParseHex(s: string): (n: nat)
    requires forall i :: 0 <= i < |s| ==> IsHexDigit(s[i])
    decreases |s|
  {
    if |s| == 0 then 0 else 16 * ParseHex(s[..|s| - 1]) + HexValue(s[|s| - 1])
  }

  lemma {:induction false} HexRoundTrip(n: nat)
    ensures ParseHex(HexDigits(n)) == n
    decreases n
  {
    if n >= 16 {
      var s := HexDigits(n);
      assert s[..|s| - 1] == HexDigits(n / 16);
      HexRoundTrip(n / 16);
    }
  }

  /** How many values the unsigned type a signed field is printed as holds:
      a `short` or `int` printed in hex is shown as its unsigned
      counterpart; the 8-bit field is cast to `long`, and the 64- and
      48-bit fields are `long`, shown as 64-bit unsigned. It is never
      smaller than the field's own modulus. */
  function PrintModulus(t: ResultType): (p: int)
    requires IsSigned(t)
    ensures p >= Modulus(t)
  {
    match t
    case S16 => 0x1_0000
    case S32 => 0x1_0000_0000
    case S8 => 0x1_0000_0000_0000_0000
    case S64 => 0x1_0000_0000_0000_0000
    case S48 => 0x1_0000_0000_0000_0000
  }

  /** The number the stream prints for a defined integer result. */
  function PrintedValue(r: Result): (p: nat)
    requires WellFormed(r) && r.defined
    ensures !IsSigned(r.rtype) ==> p == r.val
    ensures IsSigned(r.rtype) ==> p == r.val % PrintModulus(r.rtype)
    ensures r.val >= 0 ==> p == r.val
  {
    if IsSigned(r.rtype) then r.val % PrintModulus(r.rtype) else r.val
  }

  /** format() as written: the bit field is an `unsigned char`, so the
      stream writes it as a character, not as a number. */
  function FormatAsWritten(r: Result): (s: string)
    requires WellFormed(r)
    ensures !r.defined ==> s == "[empty]"
    ensures r.defined ==> |s| >= 3 && s[..2] == "0x"
  {
    if !r.defined then "[empty]"
    else if r.rtype.BitFlag? then "0x" + [r.val as char]
    else "0x" + HexDigits(PrintedValue(r))
  }

  /** As written, a set bit flag formats as "0x" followed by the control
      character U+0001, which is no hexadecimal digit. */
  lemma BitFlagFormatsAsControlCharacter()
    ensures FormatAsWritten(Defined(BitFlag, 1)) == "0x" + [1 as char]
    ensures !IsHexDigit(FormatAsWritten(Defined(BitFlag, 1))[2])
    ensures FormatAsWritten(Defined(BitFlag, 0)) == "0x" + [0 as char]
  {
  }

  /** format(): "[empty]" for an undefined result, otherwise "0x" and the
      printed value in hexadecimal, the bit flag included. */
  function Format(r: Result): (s: string)
    requires WellFormed(r)
    ensures !r.defined ==> s == "[empty]"
    ensures r.defined ==> |s| >= 3 && s[..2] == "0x"
    ensures r.defined ==> forall i :: 2 <= i < |s| ==> IsHexDigit(s[i])
    ensures r.defined && !r.rtype.BitFlag? ==> s == FormatAsWritten(r)
  {
    if !r.defined then "[empty]" else "0x" + HexDigits(PrintedValue(r))
  }

  /** The digits after "0x" read back as the printed value. */
  lemma FormatRoundTrip(r: Result)
    requires WellFormed(r) && r.defined
    ensures ParseHex(Format(r)[2..]) == PrintedValue(r)
  {
    assert Format(r)[2..] == HexDigits(PrintedValue(r));
    HexRoundTrip(PrintedValue(r));
  }

  /** With the digit fixed, a bit flag formats as "0x0" or "0x1". */
  lemma BitFlagFormatsAsDigit(v: int)
    ensures Format(Defined(BitFlag, v)) == (if v != 0 then "0x1" else "0x0")
  {
  }

  /** Printing loses nothing: two in-range values of a tag print the same
      number only when they are the same value. */
  lemma PrintedValueInjective(a: Result, b: Result)
    requires WellFormed(a) && WellFormed(b) && a.defined && b.defined && a.rtype == b.rtype
    requires PrintedValue(a) == PrintedValue(b)
    ensures a.val == b.val
  {
    if IsSigned(a.rtype) {
      var p := PrintModulus(a.rtype);
      ResidueDifference(a.val, b.val, p);
      SmallMultipleIsZero(a.val - b.val, p);
    }
  }

  /** Two defined results of one tag format alike exactly when they are equal. */
  lemma FormatAgreesWithEquals(a: Result, b: Result)
    requires WellFormed(a) && WellFormed(b) && a.defined && b.defined && a.rtype == b.rtype
    ensures Format(a) == Format(b) <==> Equals(a, b)
  {
    if Format(a) == Format(b) {
      FormatRoundTrip(a);
      FormatRoundTrip(b);
      PrintedValueInjective(a, b);
    }
  }
}

=== FILE: runtime.dfy ===
/** The agent's process-wide state and the entry points that act on it:
    reporting a timer or a counter, the base-trampoline cost record, the
    alarm tick, initialisation, fork and the exit summary.

    Every clock reading, every write outcome and every system call result
    an entry point meets is a parameter; abort() is an Aborted outcome. */
module Runtime {
  import opened Basics
  import opened Arith
  import opened Timers
  import opened Trace
  import Tags
  import Text

  /** The static variables of the runtime that its entry points read and write. */
  datatype Agent = Agent(
    layout: Layout,
    channel: Channel,          // the trace channel and its "pipe gone" latch
    startWall: int,            // wall origin of record headers
    lastWallTime: int,         // clocks at the previous cost record
    lastCPUTime: int,
    numReported: int,          // calls of the default sample routine
    sampleMultiple: int,       // an alarm tick samples every sampleMultiple-th time
    numSampled: int,
    totalAlarmExpires: int,
    totalSampleTime: int,      // CPU time spent sampling, in microseconds
    inSample: bool,            // set while an alarm tick runs
    totalSamples: int,         // sample records framed
    samplingInterval: int,     // alarm period in microseconds, as an unsigned int
    selfStops: nat,            // SIGSTOPs the agent sent itself
    elapsedCPU: Timer,         // CPU and wall time of the whole run
    elapsedWall: Timer,
    registry: Tags.Registry)

  /** A timer as static storage holds it before anything touches it. */
  function FreshTimer(kind: TimerKind): (t: Timer)
    ensures t.counter == 0 && t.total == 0 && !t.mutex && t.lastValue == 0
  {
    Timer(0, kind, 0, 0, 0, 0, false, 0, 0)
  }

  /** The agent as the process image holds it before any entry point runs. */
  function InitialAgent(layout: Layout): (a: Agent)
    ensures a.layout == layout && a.sampleMultiple == 1 && !a.inSample
    ensures a.numReported == 0 && a.numSampled == 0 && a.totalAlarmExpires == 0
    ensures a.totalSampleTime == 0 && a.totalSamples == 0 && a.samplingInterval == 0 && a.selfStops == 0
    ensures a.startWall == 0 && a.lastWallTime == 0 && a.lastCPUTime == 0
    ensures !a.channel.open && !a.channel.gone && a.channel.sent == []
    ensures a.elapsedCPU.counter == 0 && a.elapsedCPU.total == 0 && !a.elapsedCPU.mutex
    ensures a.elapsedWall.counter == 0 && a.elapsedWall.total == 0 && !a.elapsedWall.mutex
    ensures a.registry.tags == [] && a.registry.lastTagCount == 0
  {
    Agent(layout, Channel(false, false, []), 0, 0, 0, 0, 1, 0, 0, 0, false, 0, 0, 0,
          FreshTimer(ProcessTime), FreshTimer(WallTime), Tags.Registry([], 0))
  }

  /** One framer call on stream sid; only the channel changes. */
  function Emit(a: Agent, sid: int, body: Payload, env: WriteEnv): (r: Agent)
    ensures r == a.(channel := Generate(a.channel, a.layout, a.startWall, sid, body, env))
  {
    a.(channel := Generate(a.channel, a.layout, a.startWall, sid, body, env))
  }

  // ---------------------------------------------------------------------
  // Reports

  /** DYNINSTreportTimer. The value read is the timer's report value at the
      clock of its kind; a value below the last one aborts; otherwise the
      value becomes the last one, one more sample is counted, and one sample
      record carrying the raw value and the timer's divisor is framed on stream 0. */
  function ReportTimer(a: Agent, t: Timer, read: Clocks, env: WriteEnv): (r: Outcome<(Agent, Timer)>)
    ensures ReportValue(t, ClockFor(t.kind, read)) < t.lastValue <==> r == Aborted(TimeRegressed)
    ensures r.Ok? ==>
      var v := ReportValue(t, ClockFor(t.kind, read));
      && r.value.1 == t.(lastValue := v)
      && r.value.0.totalSamples == a.totalSamples + 1
      && r.value.0 == a.(totalSamples := a.totalSamples + 1,
                         channel := Generate(a.channel, a.layout, a.startWall, 0, SampleBody(t.id, v, t.normalize), env))
  {
    var t1 :- CheckedReport(t, ClockFor(t.kind, read));
    var counted := a.(totalSamples := a.totalSamples + 1);
    Ok((Emit(counted, 0, SampleBody(t.id, t1.lastValue, t.normalize), env), t1))
  }

  /** A counter the instrumentation maintains. */
  datatype Counter = Counter(id: int, value: int)

  /** DYNINSTreportCounter: one sample record with the counter's value, unscaled. */
  function ReportCounter(a: Agent, c: Counter, env: WriteEnv): (r: Agent)
    ensures r.totalSamples == a.totalSamples + 1
    ensures r.channel == Generate(a.channel, a.layout, a.startWall, 0, SampleBody(c.id, c.value, 1), env)
    ensures r == a.(totalSamples := r.totalSamples, channel := r.channel)
  {
    Emit(a.(totalSamples := a.totalSamples + 1), 0, SampleBody(c.id, c.value, 1), env)
  }

  /** Time the process spent not running since the last cost record: wall
      time elapsed minus CPU time consumed, in microseconds. */
  function PauseTime(a: Agent, now: Clocks): (pause: int) {
    (now.wall - a.lastWallTime) - (now.cpu - a.lastCPUTime)
  }

  /** DYNINSTreportBaseTramps: a cost record with the pause time, after
      which the readings become the new reference point. */
  function ReportBaseTramps(a: Agent, now: Clocks, env: WriteEnv): (r: Agent)
    ensures r.lastWallTime == now.wall && r.lastCPUTime == now.cpu
    ensures r.channel == Generate(a.channel, a.layout, a.startWall, 0, CostBody(0, PauseTime(a, now)), env)
    ensures r == a.(lastWallTime := now.wall, lastCPUTime := now.cpu, channel := r.channel)
  {
    var body := CostBody(0, PauseTime(a, now));
    Emit(a.(lastWallTime := now.wall, lastCPUTime := now.cpu), 0, body, env)
  }

  function Sum(s: seq<int>): (total: int) {
    if |s| == 0 then 0 else Sum(s[..|s| - 1]) + s[|s| - 1]
  }

  /** Successive cost records, one per reading; also the pause times they carry. */
  function BaseTrampsRun(a: Agent, readings: seq<Clocks>, env: WriteEnv): (run: (Agent, seq<int>))
    decreases |readings|
  {
    if |readings| == 0 then (a, [])
    else
      var prev := BaseTrampsRun(a, readings[..|readings| - 1], env);
      (ReportBaseTramps(prev.0, readings[|readings| - 1], env), prev.1 + [PauseTime(prev.0, readings[|readings| - 1])])
  }

  /** The pause times of successive cost records add up: together they
      account for all wall time not spent on the CPU since the first reference point. */
  lemma {:induction false} PauseTimesTelescope(a: Agent, readings: seq<Clocks>, env: WriteEnv)
    requires |readings| > 0
    ensures var run := BaseTrampsRun(a, readings, env);
      && run.0.lastWallTime == readings[|readings| - 1].wall
      && run.0.lastCPUTime == readings[|readings| - 1].cpu
      && |run.1| == |readings|
      && Sum(run.1) == (readings[|readings| - 1].wall - a.lastWallTime) - (readings[|readings| - 1].cpu - a.lastCPUTime)
    decreases |readings|
  {
    var init := readings[..|readings| - 1];
    var prev := BaseTrampsRun(a, init, env);
    var last := readings[|readings| - 1];
    var run := BaseTrampsRun(a, readings, env);
    assert run.1[..|run.1| - 1] == prev.1;
    if |init| == 0 {
      assert prev.0 == a;
    } else {
      PauseTimesTelescope(a, init, env);
      assert init[|init| - 1] == readings[|readings| - 2];
    }
  }

  // ---------------------------------------------------------------------
  // The alarm tick

  /** What one alarm tick meets: the CPU clock before and after its work,
      the clocks the cost record reads, and that record's write. */
  datatype TickInputs = TickInputs(startCpu: int, tramps: Clocks, write: WriteEnv, endCpu: int)

  /** Entering a tick: the latch is raised and the tick is counted. */
  function EnterTick(a: Agent): (r: Agent)
    ensures r.inSample
    ensures r.totalAlarmExpires == a.totalAlarmExpires + 1 && r.numSampled == a.numSampled + 1
  {
    a.(inSample := true, totalAlarmExpires := a.totalAlarmExpires + 1, numSampled := a.numSampled + 1)
  }

  /** The sampling work of a tick: the default sample routine (which only
      counts itself), the cost record, and the CPU time it all took. */
  function SampleWork(a: Agent, inp: TickInputs): (r: Agent)
    ensures r.numReported == a.numReported + 1
    ensures r.totalSampleTime == a.totalSampleTime + (inp.endCpu - inp.startCpu)
    ensures r.channel == Generate(a.channel, a.layout, a.startWall, 0, CostBody(0, PauseTime(a, inp.tramps)), inp.write)
  {
    var sampled := a.(numReported := a.numReported + 1);
    var reported := ReportBaseTramps(sampled, inp.tramps, inp.write);
    reported.(totalSampleTime := reported.totalSampleTime + (inp.endCpu - inp.startCpu))
  }

  /** Whether the tick that has just counted itself does the sampling work.
      The C remainder truncates, Dafny's is Euclidean; both are zero exactly
      when the divisor divides the dividend, which is all the test asks. */
  predicate Fires(numSampled: int, multiple: int)
    requires multiple != 0
  {
    numSampled % multiple == 0
  }

  /** DYNINSTalarmExpire. A tick arriving while another runs is dropped.
      Otherwise it is counted, and every sampleMultiple-th tick does the
      sampling work; a zero multiple is a division by zero. */
  function AlarmExpire(a: Agent, inp: TickInputs): (r: Outcome<Agent>)
    ensures a.inSample ==> r == Ok(a)
    ensures !a.inSample && a.sampleMultiple == 0 ==> r == Aborted(DivideByZero)
    ensures !a.inSample && a.sampleMultiple != 0 ==>
      && r.Ok? && !r.value.inSample
      && r.value.totalAlarmExpires == a.totalAlarmExpires + 1
      && r.value.numSampled == a.numSampled + 1
      && (Fires(a.numSampled + 1, a.sampleMultiple) <==> r.value.numReported == a.numReported + 1)
      && (!Fires(a.numSampled + 1, a.sampleMultiple) ==> r.value == a.(totalAlarmExpires := a.totalAlarmExpires + 1, numSampled := a.numSampled + 1))
    ensures !a.inSample && a.sampleMultiple != 0 && Fires(a.numSampled + 1, a.sampleMultiple) ==>
      r == Ok(a.(totalAlarmExpires := a.totalAlarmExpires + 1,
                 numSampled := a.numSampled + 1,
                 numReported := a.numReported + 1,
                 totalSampleTime := a.totalSampleTime + (inp.endCpu - inp.startCpu),
                 lastWallTime := inp.tramps.wall,
                 lastCPUTime := inp.tramps.cpu,
                 channel := Generate(a.channel, a.layout, a.startWall, 0,
                                     CostBody(0, PauseTime(a, inp.tramps)), inp.write)))
  {
    if a.inSample then Ok(a)
    else if a.sampleMultiple == 0 then Aborted(DivideByZero)
    else
      var entered := EnterTick(a);
      var worked := if Fires(entered.numSampled, entered.sampleMultiple) then SampleWork(entered, inp) else entered;
      Ok(worked.(inSample := false))
  }

  /** A tick that interrupts another tick's sampling work leaves every counter alone. */
  lemma ReentrantTickIsDropped(a: Agent, inp: TickInputs, nested: TickInputs)
    requires !a.inSample && a.sampleMultiple != 0
    ensures AlarmExpire(EnterTick(a), nested) == Ok(EnterTick(a))
    ensures AlarmExpire(SampleWork(EnterTick(a), inp), nested) == Ok(SampleWork(EnterTick(a), inp))
  {
  }

  /** Ticks in a row, none of them interrupting another. */
  function Ticks(a: Agent, inputs: seq<TickInputs>): (r: Outcome<Agent>)
    decreases |inputs|
  {
    if |inputs| == 0 then Ok(a)
    else
      var b :- Ticks(a, inputs[..|inputs| - 1]);
      AlarmExpire(b, inputs[|inputs| - 1])
  }

  /** Counting one more tick adds one to the quotient exactly when the new count is a multiple. */
  lemma DivStep(m: nat, n: Positive)
    ensures (m + 1) / n == m / n + (if (m + 1) % n == 0 then 1 else 0)
  {
    var q := m / n;
    var r := m % n;
    assert m == q * n + r;
    if r + 1 < n {
      DivModUnique(m + 1, n, q, r + 1);
    } else {
      assert m + 1 == (q + 1) * n;
      DivModUnique(m + 1, n, q + 1, 0);
    }
  }

  /** Decimation: of k ticks in a row starting after m, the sampling work
      runs once per multiple of the sample multiple in m+1..m+k, and every
      tick is counted. */
  lemma {:induction false} TicksDecimate(a: Agent, inputs: seq<TickInputs>)
    requires !a.inSample && a.sampleMultiple >= 1 && a.numSampled >= 0
    ensures var r := Ticks(a, inputs);
      && r.Ok? && !r.value.inSample
      && r.value.sampleMultiple == a.sampleMultiple
      && r.value.totalAlarmExpires == a.totalAlarmExpires + |inputs|
      && r.value.numSampled == a.numSampled + |inputs|
      && r.value.numReported == a.numReported
           + (a.numSampled + |inputs|) / a.sampleMultiple - a.numSampled / a.sampleMultiple
    decreases |inputs|
  {
    if |inputs| > 0 {
      var init := inputs[..|inputs| - 1];
      TicksDecimate(a, init);
      var b := Ticks(a, init).value;
      DivStep(a.numSampled + |init|, a.sampleMultiple);
    }
  }

  // ---------------------------------------------------------------------
  // Initialisation, fork, exit

  const DefaultInterval: int := 500000
  const UnsignedRange: int := 0x1_0000_0000

  /** The alarm period init installs: 500000 microseconds unless the
      environment names one, which atoi readings and the unsigned variable
      takes modulo 2^32. */
  function IntervalSetting(envValue: Option<string>): (v: int)
    ensures 0 <= v < UnsignedRange
    ensures envValue.None? ==> v == DefaultInterval
    ensures envValue.Some? ==> (v - Text.Atoi(envValue.value)) % UnsignedRange == 0
  {
    match envValue
    case None => DefaultInterval
    case Some(s) => Text.Atoi(s) % UnsignedRange
  }

  /** An interval written in decimal is the interval installed. */
  lemma IntervalFromDecimal(n: int)
    requires 0 <= n < UnsignedRange
    ensures IntervalSetting(Some(Text.Decimal(n))) == n
  {
    Text.DecimalRoundTrip(n);
  }

  /** A set variable with no digits in it installs a zero period, not the default. */
  lemma IntervalWithoutDigits(s: string)
    requires forall i :: 0 <= i < |s| ==> !Text.IsDigit(s[i])
    ensures IntervalSetting(Some(s)) == 0
  {
    Text.AtoiWithoutDigits(s);
  }

  /** What init meets: the calibration clocks, the sigaction result, the
      environment variable, the setitimer result and the clocks the two
      elapsed timers start at (wall first, then CPU). */
  datatype InitInputs = InitInputs(
    calib: Clocks,
    sigactionOk: bool,
    intervalEnv: Option<string>,
    setitimerOk: bool,
    timerStart: Clocks)

  /** The part of DYNINSTinit before the elapsed timers start. */
  function Configure(a: Agent, doskip: bool, inp: InitInputs): (r: Outcome<Agent>)
    ensures !inp.sigactionOk ==> r == Aborted(SignalSetupFailed)
    ensures inp.sigactionOk && !inp.setitimerOk ==> r == Aborted(AlarmSetupFailed)
    ensures inp.sigactionOk && inp.setitimerOk ==>
      && r.Ok?
      && r.value.startWall == 0
      && r.value.lastCPUTime == inp.calib.cpu && r.value.lastWallTime == inp.calib.wall
      && r.value.samplingInterval == IntervalSetting(inp.intervalEnv)
      && r.value.selfStops == a.selfStops + (if doskip then 0 else 1)
      && r.value.elapsedCPU == a.elapsedCPU && r.value.elapsedWall == a.elapsedWall
      && r.value.channel == a.channel && r.value.registry == a.registry
    ensures r.Ok? ==>
      r.value.(startWall := a.startWall, lastCPUTime := a.lastCPUTime, lastWallTime := a.lastWallTime,
               samplingInterval := a.samplingInterval, selfStops := a.selfStops) == a
  {
    var calibrated := a.(startWall := 0, lastCPUTime := inp.calib.cpu, lastWallTime := inp.calib.wall);
    if !inp.sigactionOk then Aborted(SignalSetupFailed)
    else
      var timed := calibrated.(samplingInterval := IntervalSetting(inp.intervalEnv));
      if !inp.setitimerOk then Aborted(AlarmSetupFailed)
      else Ok(if doskip then timed else timed.(selfStops := timed.selfStops + 1))
  }

  /** DYNINSTinit as written: the elapsed timers it starts are whatever the
      static variables hold, so in a forked child they are the parent's running ones. */
  function InitAsWritten(a: Agent, doskip: bool, inp: InitInputs): (r: Outcome<Agent>)
    ensures r.Ok? <==> inp.sigactionOk && inp.setitimerOk
    ensures r.Ok? ==> r.value.elapsedWall.counter == a.elapsedWall.counter + 1
    ensures r.Ok? ==> r.value.elapsedCPU.counter == a.elapsedCPU.counter + 1
    ensures r.Ok? ==>
      && r.value.elapsedWall == Start(a.elapsedWall, inp.timerStart.wall)
      && r.value.elapsedCPU == Start(a.elapsedCPU, inp.timerStart.cpu)
      && r.value.(elapsedWall := a.elapsedWall, elapsedCPU := a.elapsedCPU) == Configure(a, doskip, inp).value
  {
    var b :- Configure(a, doskip, inp);
    Ok(b.(elapsedWall := Start(b.elapsedWall, inp.timerStart.wall),
          elapsedCPU := Start(b.elapsedCPU, inp.timerStart.cpu)))
  }

  /** DYNINSTinit as evidently intended: the code starts the elapsed timers
      in whatever state they are in; here they are restarted from scratch,
      so that they measure this process from this call on. The two differ
      exactly when the timers already run (InitDiffersOnRunningTimers). */
  function InitCorrected(a: Agent, doskip: bool, inp: InitInputs): (r: Outcome<Agent>)
    ensures r.Ok? <==> inp.sigactionOk && inp.setitimerOk
    ensures r.Ok? ==>
      && r.value.elapsedWall.counter == 1 && r.value.elapsedWall.start == inp.timerStart.wall
      && r.value.elapsedWall.total == 0 && !r.value.elapsedWall.mutex
      && r.value.elapsedCPU.counter == 1 && r.value.elapsedCPU.start == inp.timerStart.cpu
      && r.value.elapsedCPU.total == 0 && !r.value.elapsedCPU.mutex
    ensures r.Ok? ==>
      r.value.(elapsedWall := a.elapsedWall, elapsedCPU := a.elapsedCPU) == Configure(a, doskip, inp).value
  {
    var b :- Configure(a, doskip, inp);
    Ok(b.(elapsedWall := Start(FreshTimer(WallTime), inp.timerStart.wall),
          elapsedCPU := Start(FreshTimer(ProcessTime), inp.timerStart.cpu)))
  }

  /** In a process that has not initialised before, the two agree. */
  lemma InitAgreesOnFreshProcess(layout: Layout, doskip: bool, inp: InitInputs)
    ensures InitCorrected(InitialAgent(layout), doskip, inp) == InitAsWritten(InitialAgent(layout), doskip, inp)
  {
  }

  /** Where the elapsed timers already run, as in a forked child of an
      initialised process, the corrected init and the as-written one part:
      the code nests the timers one level deeper, the correction restarts them. */
  lemma InitDiffersOnRunningTimers(a: Agent, doskip: bool, inp: InitInputs)
    requires inp.sigactionOk && inp.setitimerOk
    requires a.elapsedWall.counter >= 1
    ensures InitAsWritten(a, doskip, inp).Ok? && InitCorrected(a, doskip, inp).Ok?
    ensures InitAsWritten(a, doskip, inp).value.elapsedWall.counter >= 2
    ensures InitCorrected(a, doskip, inp).value.elapsedWall.counter == 1
  {
  }

  /** DYNINSTfork with the corrected init: the parent (pid > 0) frames one
      fork record on stream 0 and flushes; any other pid (the child, or a
      failed fork) re-runs init without the self-stop. */
  function ForkCorrected(a: Agent, ownPid: int, pid: int, inp: InitInputs, env: WriteEnv): (r: Outcome<Agent>)
    ensures pid > 0 ==> r == Ok(Emit(a, 0, ForkBody(ownPid, pid, 1, 0), env))
    ensures pid <= 0 ==> r == InitCorrected(a, true, inp)
    ensures pid <= 0 && r.Ok? ==> r.value.selfStops == a.selfStops
  {
    if pid > 0 then Ok(Emit(a, 0, ForkBody(ownPid, pid, 1, 0), env))
    else InitCorrected(a, true, inp)
  }

  /** DYNINSTfork as written, calling the as-written init. */
  function ForkAsWritten(a: Agent, ownPid: int, pid: int, inp: InitInputs, env: WriteEnv): (r: Outcome<Agent>)
    ensures pid > 0 ==> r == ForkCorrected(a, ownPid, pid, inp, env)
    ensures pid <= 0 ==> r == InitAsWritten(a, true, inp)
  {
    if pid > 0 then Ok(Emit(a, 0, ForkBody(ownPid, pid, 1, 0), env))
    else InitAsWritten(a, true, inp)
  }

  /** The parent branch frames exactly one fork record, naming both processes. */
  lemma ParentForkFramesOneRecord(a: Agent, ownPid: int, pid: int, inp: InitInputs, env: WriteEnv)
    requires pid > 0 && !a.channel.gone && env.ok
    ensures var r := ForkCorrected(a, ownPid, pid, inp, env);
      && r.Ok?
      && r.value.channel.sent == a.channel.sent + [FrameFor(a.layout, a.startWall, 0, ForkBody(ownPid, pid, 1, 0), env.stamp)]
      && r.value.channel.sent[|a.channel.sent|].header.rtype == TrFork
  {
  }

  /** The clocks the exit summary's two stops read (CPU stop first). */
  datatype ShutdownInputs = ShutdownInputs(cpu1: int, cpu2: int, wall1: int, wall2: int, write: WriteEnv)

  /** The integer content of the exit summary, in microseconds where it is a time. */
  function ExitStatsOf(a: Agent): (s: ExitStats)
    ensures s.totalCpuTime == a.elapsedCPU.total && s.totalWallTime == a.elapsedWall.total
    ensures s.alarms == a.totalAlarmExpires && s.samplesReported == a.totalSamples
    ensures s.numReported == a.numReported && s.handlerCost == a.totalSampleTime
    ensures s.samplingInterval == a.samplingInterval
    ensures s.userTicks == 0 && s.instTicks == 0
  {
    ExitStats(a.totalAlarmExpires, a.numReported, a.totalSamples, a.elapsedCPU.total,
              a.elapsedWall.total, a.totalSampleTime, a.samplingInterval, 0, 0)
  }

  /** DYNINSTprintCost: stop the elapsed CPU timer, then the elapsed wall
      timer, and frame the exit summary. */
  function Shutdown(a: Agent, inp: ShutdownInputs): (r: Outcome<Agent>)
    ensures r.Ok? <==> Stop(a.elapsedCPU, inp.cpu1, inp.cpu2).Ok? && Stop(a.elapsedWall, inp.wall1, inp.wall2).Ok?
    ensures r.Ok? ==>
      && r.value.elapsedCPU == Stop(a.elapsedCPU, inp.cpu1, inp.cpu2).value
      && r.value.elapsedWall == Stop(a.elapsedWall, inp.wall1, inp.wall2).value
      && r.value.channel == Generate(a.channel, a.layout, a.startWall, 0, ExitBody(ExitStatsOf(r.value)), inp.write)
    ensures r.Ok? ==>
      r.value == a.(elapsedCPU := Stop(a.elapsedCPU, inp.cpu1, inp.cpu2).value,
                    elapsedWall := Stop(a.elapsedWall, inp.wall1, inp.wall2).value,
                    channel := r.value.channel)
  {
    var cpu :- Stop(a.elapsedCPU, inp.cpu1, inp.cpu2);
    var wall :- Stop(a.elapsedWall, inp.wall1, inp.wall2);
    var stopped := a.(elapsedCPU := cpu, elapsedWall := wall);
    Ok(Emit(stopped, 0, ExitBody(ExitStatsOf(stopped)), inp.write))
  }

  /** As written, a forked child that re-initialises and then exits reports
      the totals its parent had accumulated when it forked, whatever time
      the child itself ran: its elapsed timers are nested one level deeper,
      so the exit's stops never close them. */
  lemma ChildExitStatsAsWritten(parent: Agent, ownPid: int, inp: InitInputs, env: WriteEnv, sd: ShutdownInputs)
    requires parent.elapsedCPU.counter == 1 && parent.elapsedWall.counter == 1
    requires inp.sigactionOk && inp.setitimerOk
    ensures var child := ForkAsWritten(parent, ownPid, 0, inp, env);
      && child.Ok?
      && var done := Shutdown(child.value, sd);
      && done.Ok?
      && ExitStatsOf(done.value).totalCpuTime == parent.elapsedCPU.total
      && ExitStatsOf(done.value).totalWallTime == parent.elapsedWall.total
      && done.value.elapsedWall.counter == 1
  {
    var child := ForkAsWritten(parent, ownPid, 0, inp, env).value;
    assert child.elapsedWall.counter == 2 && child.elapsedCPU.counter == 2;
  }

  /** Concretely: a process that initialises, forks, and whose child exits at
      once reports zero CPU and wall time for the child, whatever the clocks read. */
  lemma ChildOfFreshProcessReportsNothing(layout: Layout, parentInp: InitInputs, ownPid: int,
                                          childInp: InitInputs, env: WriteEnv, sd: ShutdownInputs)
    requires parentInp.sigactionOk && parentInp.setitimerOk
    requires childInp.sigactionOk && childInp.setitimerOk
    ensures var parent := InitAsWritten(InitialAgent(layout), false, parentInp);
      && parent.Ok?
      && var child := ForkAsWritten(parent.value, ownPid, 0, childInp, env);
      && child.Ok?
      && var done := Shutdown(child.value, sd);
      && done.Ok?
      && ExitStatsOf(done.value).totalCpuTime == 0
      && ExitStatsOf(done.value).totalWallTime == 0
  {
    var parent := InitAsWritten(InitialAgent(layout), false, parentInp).value;
    ChildExitStatsAsWritten(parent, ownPid, childInp, env, sd);
  }

  /** With init restarting the elapsed timers, the child's exit summary
      measures the child: the time from its re-initialisation to its exit. */
  lemma ChildExitStatsMeasureChild(parent: Agent, ownPid: int, inp: InitInputs, env: WriteEnv, sd: ShutdownInputs)
    requires inp.sigactionOk && inp.setitimerOk
    requires inp.timerStart.cpu <= sd.cpu1 && inp.timerStart.wall <= sd.wall1
    ensures var child := ForkCorrected(parent, ownPid, 0, inp, env);
      && child.Ok?
      && var done := Shutdown(child.value, sd);
      && done.Ok?
      && ExitStatsOf(done.value).totalCpuTime == sd.cpu2 - inp.timerStart.cpu
      && ExitStatsOf(done.value).totalWallTime == sd.wall2 - inp.timerStart.wall
      && done.value.elapsedCPU.counter == 0 && done.value.elapsedWall.counter == 0
  {
  }

  // ---------------------------------------------------------------------
  // Tags

  /** DYNINSTrecordTag on the agent's registry. */
  function RecordTag(a: Agent, tag: int): (r: Outcome<Agent>)
    ensures r.Ok? <==> Tags.Recorded(a.registry, tag).Ok?
    ensures r.Ok? ==> r.value == a.(registry := Tags.Recorded(a.registry, tag).value)
  {
    var reg :- Tags.Recorded(a.registry, tag);
    Ok(a.(registry := reg))
  }

  /** DYNINSTreportNewTags on the agent: each new tag's announcement is
      framed on stream 0, in order, and the registry is marked up to date. */
  method ReportNewTags(a: Agent, env: nat -> WriteEnv) returns (r: Agent)
    ensures r.registry == a.registry.(lastTagCount := |a.registry.tags|)
    ensures r.channel == GenerateAll(a.channel, a.layout, a.startWall, 0, Tags.NewTagBodies(a.registry), env)
    ensures r == a.(registry := r.registry, channel := r.channel)
  {
    var next, bodies := Tags.ReportNewTags(a.registry);
    r := a.(registry := next, channel := GenerateAll(a.channel, a.layout, a.startWall, 0, bodies, env));
  }
}

=== FILE: tags.dfy ===
/** The registry of message tags the instrumented program uses: a capped
    list without duplicates, in insertion order, and the report that
    announces each tag once as a new resource. */
module Tags {
  import opened Basics
  import opened Trace
  import Text

  /** Capacity of the tag table. */
  const TagLimit: nat := 1000

  /** The tag table, and how many of its entries have been announced. */
  datatype Registry = Registry(tags: seq<int>, lastTagCount: nat)

  predicate NoDuplicates(s: seq<int>) {
    forall i, j :: 0 <= i < j < |s| ==> s[i] != s[j]
  }

  /** What every reachable registry satisfies. */
  predicate Valid(reg: Registry) {
    && |reg.tags| <= TagLimit
    && NoDuplicates(reg.tags)
    && reg.lastTagCount <= |reg.tags|
  }

  /** Reference definition of recording a tag: a known tag changes nothing,
      a new one is appended unless the table is full, which aborts. */
  function Recorded(reg: Registry, tag: int): (r: Outcome<Registry>) {
    if tag in reg.tags then Ok(reg)
    else if |reg.tags| == TagLimit then Aborted(TagLimitReached)
    else Ok(reg.(tags := reg.tags + [tag]))
  }

  /** DYNINSTrecordTag: a linear scan for the tag, then the capacity check. */
  method RecordTag(reg: Registry, tag: int) returns (r: Outcome<Registry>)
    ensures r == Recorded(reg, tag)
    ensures tag in reg.tags ==> r == Ok(reg)
    ensures r.Ok? ==> r.value.lastTagCount == reg.lastTagCount && tag in r.value.tags
  {
    var i := 0;
    while i < |reg.tags|
      invariant 0 <= i <= |reg.tags|
      invariant tag !in reg.tags[..i]
    {
      if reg.tags[i] == tag {
        return Ok(reg);
      }
      i := i + 1;
    }
    assert reg.tags[..i] == reg.tags;
    if |reg.tags| == TagLimit {
      return Aborted(TagLimitReached);
    }
    r := Ok(reg.(tags := reg.tags + [tag]));
  }

  /** Recording keeps the table valid: no duplicates and never above the cap. */
  lemma RecordedKeepsValid(reg: Registry, tag: int)
    requires Valid(reg)
    ensures Recorded(reg, tag).Ok? ==> Valid(Recorded(reg, tag).value)
  {
  }

  /** Recording the same tag twice is recording it once. */
  lemma RecordedIsIdempotent(reg: Registry, tag: int)
    requires Recorded(reg, tag).Ok?
    ensures Recorded(Recorded(reg, tag).value, tag) == Recorded(reg, tag)
  {
  }

  /** Recording never reorders or drops tags: the old table is a prefix of the new one. */
  lemma RecordedKeepsOrder(reg: Registry, tag: int)
    requires Recorded(reg, tag).Ok?
    ensures reg.tags <= Recorded(reg, tag).value.tags
  {
  }

  /** The resource name a tag is announced under. */
  function TagName(tag: int): (name: string) {
    "SyncObject/MsgTag/" + Text.Decimal(tag)
  }

  /** The body of the record announcing a tag. */
  function NewTagBody(tag: int): (body: Payload) {
    ResourceBody(TagName(tag), "BASE")
  }

  /** A tag's announcement names it unambiguously: the decimal text after the prefix reads back as the tag. */
  lemma TagNameIdentifiesTag(tag: int)
    ensures TagName(tag)[..18] == "SyncObject/MsgTag/"
    ensures Text.Atoi(TagName(tag)[18..]) == tag
  {
    assert TagName(tag)[18..] == Text.Decimal(tag);
    Text.DecimalRoundTrip(tag);
  }

  /** Reference definition of a report: one announcement per tag recorded
      since the last report, in table order. */
  function NewTagBodies(reg: Registry): (bodies: seq<Payload>)
    ensures reg.lastTagCount <= |reg.tags| ==> |bodies| == |reg.tags| - reg.lastTagCount
    ensures reg.lastTagCount > |reg.tags| ==> bodies == []
    ensures forall k :: 0 <= k < |bodies| ==> bodies[k] == NewTagBody(reg.tags[reg.lastTagCount + k])
  {
    if reg.lastTagCount > |reg.tags| then []
    else seq(|reg.tags| - reg.lastTagCount, k requires 0 <= k < |reg.tags| - reg.lastTagCount =>
               NewTagBody(reg.tags[reg.lastTagCount + k]))
  }

  /** DYNINSTreportNewTags: the bodies announcing the tags added since the
      last report, in table order, and the registry marked up to date. */
  method ReportNewTags(reg: Registry) returns (next: Registry, bodies: seq<Payload>)
    ensures next == reg.(lastTagCount := |reg.tags|)
    ensures bodies == NewTagBodies(reg)
    ensures reg.lastTagCount <= |reg.tags| ==> |bodies| == |reg.tags| - reg.lastTagCount
    ensures forall k :: 0 <= k < |bodies| ==> bodies[k] == NewTagBody(reg.tags[reg.lastTagCount + k])
  {
    bodies := [];
    var i := reg.lastTagCount;
    while i < |reg.tags|
      invariant reg.lastTagCount <= i
      invariant i <= |reg.tags| || (i == reg.lastTagCount && bodies == [])
      invariant |bodies| == i - reg.lastTagCount
      invariant forall k :: 0 <= k < |bodies| ==> bodies[k] == NewTagBody(reg.tags[reg.lastTagCount + k])
    {
      bodies := bodies + [NewTagBody(reg.tags[i])];
      i := i + 1;
    }
    next := reg.(lastTagCount := |reg.tags|);
  }

  /** After a report, the next report announces exactly the tags recorded
      in between: a tag already known is never announced again. */
  lemma ReportedTagsAreNotRepeated(reg: Registry, tag: int)
    requires Valid(reg)
    requires Recorded(reg.(lastTagCount := |reg.tags|), tag).Ok?
    ensures var after := Recorded(reg.(lastTagCount := |reg.tags|), tag).value;
      NewTagBodies(after) == (if tag in reg.tags then [] else [NewTagBody(tag)])
  {
    var after := Recorded(reg.(lastTagCount := |reg.tags|), tag).value;
    if tag !in reg.tags {
      assert after.tags[after.lastTagCount] == tag;
    }
  }
}

=== FILE: text.dfy ===
/** The two pieces of C text handling the runtime relies on: printf's "%d"
    (tag names) and atoi (the sampling-interval environment variable). */
module Text {

  predicate IsDigit(c: char) {
    '0' <= c <= '9'
  }

  function DigitValue(c: char): (d: int)
    requires IsDigit(c)
  {
    c as int - '0' as int
  }

  function DigitChar(d: int): (c: char)
    requires 0 <= d < 10
    ensures IsDigit(c) && DigitValue(c) == d
  {
    ('0' as int + d) as char
  }

  /** Decimal digits of n, most significant first, with no leading zero. */
  function NatDigits(n: nat): (s: string)
    ensures 1 <= |s|
    ensures forall i :: 0 <= i < |s| ==> IsDigit(s[i])
    ensures s[0] == '0' <==> n == 0
    decreases n
  {
    if n < 10 then [DigitChar(n)] else NatDigits(n / 10) + [DigitChar(n % 10)]
  }

  /** What printf's "%d" writes for n. */
  function Decimal(n: int): (s: string)
    ensures 1 <= |s|
    ensures s[0] == '-' <==> n < 0
  {
    if n < 0 then "-" + NatDigits(-n) else NatDigits(n)
  }

  /** Value of a run of decimal digits, most significant first. */
  function DigitsValue(s: string): (n: nat)
    requires forall i :: 0 <= i < |s| ==> IsDigit(s[i])
    decreases |s|
  {
    if |s| == 0 then 0 else 10 * DigitsValue(s[..|s| - 1]) + DigitValue(s[|s| - 1])
  }

  /** Length of the longest prefix of s made of digits. */
  function DigitRun(s: string): (n: nat)
    ensures n <= |s|
    ensures forall i :: 0 <= i < n ==> IsDigit(s[i])
    ensures n < |s| ==> !IsDigit(s[n])
  {
    if |s| == 0 || !IsDigit(s[0]) then 0 else 1 + DigitRun(s[1..])
  }

  /** The characters C's isspace accepts in the "C" locale. */
  predicate IsSpace(c: char) {
    c == ' ' || 9 <= c as int <= 13
  }

  /** s without its leading white space. */
  function SkipSpaces(s: string): (t: string)
    ensures |t| <= |s| && t == s[|s| - |t|..]
    ensures |t| > 0 ==> !IsSpace(t[0])
    ensures forall i :: 0 <= i < |s| - |t| ==> IsSpace(s[i])
  {
    if |s| > 0 && IsSpace(s[0]) then SkipSpaces(s[1..]) else s
  }

  /** atoi: leading white space, an optional sign, then the longest run of
      digits; 0 when no digit follows. (Overflow, which C leaves undefined,
      is not modelled: the value is the mathematical one.) */
  function Atoi(s: string): (n: int)
  {
    var t := SkipSpaces(s);
    if |t| > 0 && (t[0] == '-' || t[0] == '+') then
      var m: int := DigitsValue(t[1..][..DigitRun(t[1..])]);
      if t[0] == '-' then -m else m
    else
      DigitsValue(t[..DigitRun(t)])
  }

  lemma {:induction false} DigitsValueOfNatDigits(n: nat)
    ensures DigitsValue(NatDigits(n)) == n
    decreases n
  {
    if n >= 10 {
      var s := NatDigits(n);
      assert s[..|s| - 1] == NatDigits(n / 10);
      DigitsValueOfNatDigits(n / 10);
    }
  }

  /** atoi reads back every number printf's "%d" writes: a tag's decimal
      name identifies the tag. */
  lemma DecimalRoundTrip(n: int)
    ensures Atoi(Decimal(n)) == n
  {
    var t := Decimal(n);
    assert SkipSpaces(t) == t;
    var digits := NatDigits(if n < 0 then -n else n);
    DigitsValueOfNatDigits(if n < 0 then -n else n);
    if n < 0 {
      assert t[1..] == digits;
      assert DigitRun(digits) == |digits|;
      assert digits[..|digits|] == digits;
    } else {
      assert t == digits;
      assert DigitRun(digits) == |digits|;
      assert digits[..|digits|] == digits;
    }
  }

  /** A value with no digit at all reads as 0. */
  lemma AtoiWithoutDigits(s: string)
    requires forall i :: 0 <= i < |s| ==> !IsDigit(s[i])
    ensures Atoi(s) == 0
  {
    var t := SkipSpaces(s);
    assert forall i :: 0 <= i < |t| ==> t[i] == s[|s| - |t| + i];
    if |t| > 0 && (t[0] == '-' || t[0] == '+') {
      assert DigitRun(t[1..]) == 0 by {
        if |t[1..]| > 0 {
          assert t[1..][0] == t[1];
        }
      }
      assert t[1..][..0] == [];
    } else {
      assert DigitRun(t) == 0;
      assert t[..0] == [];
    }
  }
}

=== FILE: timers.dfy ===
/** The timer engine of the runtime: nestable start/stop accumulators for
    process (CPU) time or wall time, the value a report reads from one, and
    the monotonicity guard on reports.

    The process and wall variants of start and stop differ only in the clock
    they read, so one Start and one Stop take the reading as a parameter. */
module Timers {
  import opened Basics

  datatype TimerKind = ProcessTime | WallTime

  /** Divisor a start installs: timers count microseconds, samples are seconds. */
  const Million: int := 1000000

  datatype Timer = Timer(
    id: int,
    kind: TimerKind,
    counter: int,    // starts not yet matched by a stop
    start: int,      // clock reading taken by the outermost start
    total: int,      // time accumulated by closed intervals
    snapShot: int,   // value a reader uses while mutex is set
    mutex: bool,     // set while stop rewrites total
    lastValue: int,  // value of the last successful report
    normalize: int)

  /** The clock a timer of this kind reads. */
  function ClockFor(kind: TimerKind, c: Clocks): (now: int) {
    match kind
    case ProcessTime => c.cpu
    case WallTime => c.wall
  }

  /** A start: only the outermost one reads the clock; every one counts. */
  function Start(t: Timer, now: int): (r: Timer)
    ensures r.counter == t.counter + 1
    ensures t.counter == 0 ==> r.start == now && r.normalize == Million
    ensures t.counter != 0 ==> r.start == t.start && r.normalize == t.normalize
    ensures r.total == t.total && r.snapShot == t.snapShot && r.mutex == t.mutex
    ensures r.lastValue == t.lastValue && r.id == t.id && r.kind == t.kind
  {
    if t.counter == 0 then t.(start := now, normalize := Million, counter := 1)
    else t.(counter := t.counter + 1)
  }

  /** The five stores of an outermost stop. A report that interrupts the stop
      sees the timer after some prefix of them. */
  datatype StopStep = WriteSnapShot | RaiseMutex | ClearCounter | WriteTotal | LowerMutex

  const StopSequence: seq<StopStep> := [WriteSnapShot, RaiseMutex, ClearCounter, WriteTotal, LowerMutex]

  /** One store of an outermost stop; now1 and now2 are its two clock readings. */
  function ApplyStep(t: Timer, step: StopStep, now1: int, now2: int): (r: Timer) {
    match step
    case WriteSnapShot => t.(snapShot := now1 - t.start + t.total)
    case RaiseMutex => t.(mutex := true)
    case ClearCounter => t.(counter := 0)
    case WriteTotal => t.(total := now2 - t.start + t.total)
    case LowerMutex => t.(mutex := false)
  }

  /** The timer after the first k stores of an outermost stop, stated field by field. */
  function StopPrefix(t: Timer, k: nat, now1: int, now2: int): (r: Timer)
    requires k <= |StopSequence|
    ensures r.snapShot == (if k >= 1 then now1 - t.start + t.total else t.snapShot)
    ensures r.mutex == (if k == 0 || k == 1 then t.mutex else k != 5)
    ensures r.counter == (if k >= 3 then 0 else t.counter)
    ensures r.total == (if k >= 4 then now2 - t.start + t.total else t.total)
    ensures r.start == t.start && r.lastValue == t.lastValue && r.normalize == t.normalize
    ensures r.id == t.id && r.kind == t.kind
    decreases k
  {
    if k == 0 then t
    else ApplyStep(StopPrefix(t, k - 1, now1, now2), StopSequence[k - 1], now1, now2)
  }

  /** A stop. Stopping an idle timer changes nothing; an inner stop only
      unwinds the nesting; the outermost stop runs its five stores and then
      aborts if its first reading lies before the timer's start. */
  function Stop(t: Timer, now1: int, now2: int): (r: Outcome<Timer>)
    ensures t.counter == 0 ==> r == Ok(t)
    ensures t.counter == 1 && now1 < t.start ==> r == Aborted(TimerRollback)
    ensures t.counter == 1 && now1 >= t.start ==>
      && r.Ok?
      && r.value.counter == 0 && !r.value.mutex
      && r.value.snapShot == now1 - t.start + t.total
      && r.value.total == now2 - t.start + t.total
      && r.value == t.(counter := 0, mutex := false, snapShot := r.value.snapShot, total := r.value.total)
    ensures t.counter == 1 && t.start <= now1 <= now2 ==>
      r.Ok? && r.value.total >= r.value.snapShot >= t.total
    ensures t.counter != 0 && t.counter != 1 ==> r == Ok(t.(counter := t.counter - 1))
  {
    if t.counter == 0 then Ok(t)
    else if t.counter == 1 then
      var done := StopPrefix(t, |StopSequence|, now1, now2);
      if now1 < t.start then Aborted(TimerRollback) else Ok(done)
    else Ok(t.(counter := t.counter - 1))
  }

  /** The value a report takes: the snapshot while a stop holds the mutex,
      the running extrapolation while the timer runs, the total otherwise. */
  function ReportValue(t: Timer, now: int): (v: int)
    ensures t.mutex ==> v == t.snapShot
    ensures !t.mutex && t.counter != 0 ==> v - t.total == now - t.start
    ensures !t.mutex && t.counter == 0 ==> v == t.total
  {
    if t.mutex then t.snapShot
    else if t.counter != 0 then now - t.start + t.total
    else t.total
  }

  /** The monotonicity guard of a report: a value below the last one aborts;
      otherwise it becomes the last value. Nothing else of the timer changes. */
  function CheckedReport(t: Timer, now: int): (r: Outcome<Timer>)
    ensures ReportValue(t, now) < t.lastValue <==> r == Aborted(TimeRegressed)
    ensures r.Ok? ==> r.value.lastValue >= t.lastValue
    ensures r.Ok? ==> r.value == t.(lastValue := ReportValue(t, now))
  {
    var v := ReportValue(t, now);
    if v < t.lastValue then Aborted(TimeRegressed) else Ok(t.(lastValue := v))
  }

  /** A report on a running outermost timer reads exactly what a stop whose
      second reading is the report's clock would write as the new total; once
      the timer is stopped, every report reads that total, whatever the clock. */
  lemma ReportReadsWhatStopWouldWrite(t: Timer, now1: int, now: int, later: int)
    requires t.counter == 1 && !t.mutex && t.start <= now1
    ensures Stop(t, now1, now).Ok?
    ensures ReportValue(t, now) == Stop(t, now1, now).value.total
    ensures ReportValue(Stop(t, now1, now).value, later) == ReportValue(t, now)
  {
  }

  // ---------------------------------------------------------------------
  // Nesting

  /** An inner start/stop pair is invisible: the inner start reads no clock,
      the inner stop only unwinds, and the outer stop then sees exactly the
      timer the outer start left. */
  lemma NestedPairIsTransparent(t: Timer, a: int, b: int, u1: int, u2: int)
    requires t.counter == 0
    ensures Stop(Start(Start(t, a), b), u1, u2) == Ok(Start(t, a))
  {
  }

  // ---------------------------------------------------------------------
  // Reads during an outermost stop

  /** A report that interrupts an outermost stop after any prefix of its
      stores reads the running extrapolation (before the mutex is raised),
      the snapshot (while it is raised) or the new total (after): never the
      stale total once the counter has been cleared. */
  lemma InterruptedStopReadsCoherentValue(t: Timer, k: nat, now1: int, now2: int, nowR: int)
    requires t.counter == 1 && !t.mutex
    requires k <= |StopSequence|
    ensures var v := ReportValue(StopPrefix(t, k, now1, now2), nowR);
      && (k <= 1 ==> v == nowR - t.start + t.total)
      && (2 <= k <= 4 ==> v == now1 - t.start + t.total)
      && (k == 5 ==> v == now2 - t.start + t.total)
  {
  }

  /** With a clock that never runs backwards, what that interrupted report
      reads lies between the old total and the new one. */
  lemma InterruptedStopReadIsBounded(t: Timer, k: nat, now1: int, now2: int, nowR: int)
    requires t.counter == 1 && !t.mutex
    requires k <= |StopSequence|
    requires t.start <= now1 <= now2
    requires k <= 1 ==> t.start <= nowR <= now2
    ensures t.total <= ReportValue(StopPrefix(t, k, now1, now2), nowR) <= now2 - t.start + t.total
  {
    InterruptedStopReadsCoherentValue(t, k, now1, now2, nowR);
  }

  /** One report interrupting an outermost stop neither aborts nor publishes
      a value above the total the stop goes on to write, so the first report
      after the stop does not abort either. An interrupt before the stop's
      second reading (k <= 1 here) reads the clock no later than that reading. */
  lemma InterruptedStopKeepsReportsMonotone(t: Timer, clock: int, k: nat, now1: int, now2: int, nowR: int)
    requires Coherent(t, clock) && t.counter == 1
    requires clock <= now1 <= now2
    requires k <= |StopSequence|
    requires clock <= nowR && (k <= 1 ==> nowR <= now2)
    ensures CheckedReport(StopPrefix(t, k, now1, now2), nowR).Ok?
    ensures Coherent(StopPrefix(t, |StopSequence|, now1, now2)
      .(lastValue := CheckedReport(StopPrefix(t, k, now1, now2), nowR).value.lastValue), now2)
  {
    InterruptedStopReadsCoherentValue(t, k, now1, now2, nowR);
  }

  /** The protocol tolerates one interruption per stop, not two: a report
      after the snapshot store but before the mutex is raised extrapolates
      past the snapshot, and a second report while the mutex is up then reads
      the smaller snapshot and aborts, although every clock reading is in order. */
  lemma TwoInterruptsInOneStopCanRegress()
    ensures var t := Timer(0, WallTime, 1, 10, 0, 0, false, 0, Million);
      var first := CheckedReport(StopPrefix(t, 1, 20, 30), 25);
      && first.Ok?
      && CheckedReport(StopPrefix(t, 2, 20, 30).(lastValue := first.value.lastValue), 26)
         == Aborted(TimeRegressed)
  {
  }

  // ---------------------------------------------------------------------
  // Sequences of timer operations

  datatype TimerEvent = StartAt(now: int) | StopAt(first: int, second: int) | ReportAt(reading: int)

  function Step(t: Timer, e: TimerEvent): (r: Outcome<Timer>) {
    match e
    case StartAt(now) => Ok(Start(t, now))
    case StopAt(now1, now2) => Stop(t, now1, now2)
    case ReportAt(now) => CheckedReport(t, now)
  }

  /** Runs the events in order; yields the final timer and the values the
      reports published, in order, or the first abort. */
  function Run(t: Timer, events: seq<TimerEvent>): (r: Outcome<(Timer, seq<int>)>)
    decreases |events|
  {
    if |events| == 0 then Ok((t, []))
    else
      match Step(t, events[0])
      case Aborted(why) => Aborted(why)
      case Ok(t1) =>
        match Run(t1, events[1..])
        case Aborted(why) => Aborted(why)
        case Ok(rest) =>
          var published := if events[0].ReportAt? then [t1.lastValue] else [];
          Ok((rest.0, published + rest.1))
  }

  predicate NonDecreasing(s: seq<int>) {
    forall i, j :: 0 <= i < j < |s| ==> s[i] <= s[j]
  }

  /** Whatever the clocks do, the reports of a run that does not abort
      publish a non-decreasing sequence, starting no lower than the value the
      timer last reported, and the final last value is the last published. */
  lemma {:induction false} RunReportsNeverDecrease(t: Timer, events: seq<TimerEvent>)
    requires Run(t, events).Ok?
    ensures var res := Run(t, events).value;
      && NonDecreasing([t.lastValue] + res.1)
      && res.0.lastValue >= t.lastValue
      && (|res.1| > 0 ==> res.0.lastValue == res.1[|res.1| - 1])
      && (|res.1| == 0 ==> res.0.lastValue == t.lastValue)
    decreases |events|
  {
    if |events| > 0 {
      var t1 := Step(t, events[0]).value;
      RunReportsNeverDecrease(t1, events[1..]);
      var rest := Run(t1, events[1..]).value;
      var res := Run(t, events).value;
      if events[0].ReportAt? {
        var s1 := [t1.lastValue] + rest.1;
        var s := [t.lastValue] + res.1;
        assert res.1 == s1;
        assert t1.lastValue >= t.lastValue;
        forall i, j | 0 <= i < j < |s|
          ensures s[i] <= s[j]
        {
          assert s[j] == s1[j - 1];
          if i > 0 {
            assert s[i] == s1[i - 1];
          } else if j > 1 {
            assert s1[0] <= s1[j - 1];
          }
        }
      } else {
        assert res.1 == rest.1;
        assert t1.lastValue == t.lastValue;
      }
    }
  }

  /** A timer state that a later reading of a clock that has reached `clock`
      can report without aborting: no stop in progress, depth not negative,
      a running interval that started no later than `clock`, and a last
      reported value not above the current value. */
  ghost predicate Coherent(t: Timer, clock: int) {
    && t.counter >= 0
    && !t.mutex
    && (t.counter > 0 ==> t.start <= clock)
    && t.lastValue <= ReportValue(t, clock)
  }

  function FirstReading(e: TimerEvent): (now: int) {
    match e
    case StartAt(now) => now
    case StopAt(now1, _) => now1
    case ReportAt(now) => now
  }

  function LastReading(e: TimerEvent): (now: int) {
    match e
    case StartAt(now) => now
    case StopAt(_, now2) => now2
    case ReportAt(now) => now
  }

  /** The readings the events take form a non-decreasing sequence starting at `clock` or later. */
  ghost predicate ClockMonotone(clock: int, events: seq<TimerEvent>)
    decreases |events|
  {
    |events| == 0 ||
    (&& clock <= FirstReading(events[0]) <= LastReading(events[0])
     && ClockMonotone(LastReading(events[0]), events[1..]))
  }

  lemma StepKeepsCoherent(t: Timer, clock: int, e: TimerEvent)
    requires Coherent(t, clock)
    requires clock <= FirstReading(e) <= LastReading(e)
    ensures Step(t, e).Ok? && Coherent(Step(t, e).value, LastReading(e))
  {
  }

  /** With clocks that never run backwards no operation aborts: the rollback
      and regression aborts are reachable only through a backward clock. */
  lemma {:induction false} MonotoneClockNeverAborts(t: Timer, clock: int, events: seq<TimerEvent>)
    requires Coherent(t, clock)
    requires ClockMonotone(clock, events)
    ensures Run(t, events).Ok?
    decreases |events|
  {
    if |events| > 0 {
      StepKeepsCoherent(t, clock, events[0]);
      MonotoneClockNeverAborts(Step(t, events[0]).value, LastReading(events[0]), events[1..]);
    }
  }

  /** A first clock reading before the start of a running outermost interval
      aborts the stop, and a report whose value is below the last one aborts. */
  lemma BackwardClockAborts(t: Timer, now1: int, now2: int, nowR: int)
    requires !t.mutex
    ensures t.counter == 1 && now1 < t.start ==> Stop(t, now1, now2) == Aborted(TimerRollback)
    ensures t.counter != 0 && nowR - t.start + t.total < t.lastValue ==>
      CheckedReport(t, nowR) == Aborted(TimeRegressed)
  {
  }

  // ---------------------------------------------------------------------
  // Accumulation

  /** One closed interval: the start's reading and the stop's two readings. */
  datatype Interval = Interval(begin: int, first: int, second: int)

  function IntervalEvents(ivs: seq<Interval>): (evs: seq<TimerEvent>)
    decreases |ivs|
  {
    if |ivs| == 0 then []
    else [StartAt(ivs[0].begin), StopAt(ivs[0].first, ivs[0].second)] + IntervalEvents(ivs[1..])
  }

  function Elapsed(ivs: seq<Interval>): (d: int)
    decreases |ivs|
  {
    if |ivs| == 0 then 0 else (ivs[0].second - ivs[0].begin) + Elapsed(ivs[1..])
  }

  /** Sequential start/stop pairs on an idle timer add up: the total grows by
      the sum, over the intervals, of the stop's second reading minus the
      start's reading, and the timer ends idle. */
  lemma {:induction false} IntervalsAccumulate(t: Timer, ivs: seq<Interval>)
    requires t.counter == 0
    requires forall i :: 0 <= i < |ivs| ==> ivs[i].begin <= ivs[i].first
    ensures Run(t, IntervalEvents(ivs)).Ok?
    ensures Run(t, IntervalEvents(ivs)).value.0.total == t.total + Elapsed(ivs)
    ensures Run(t, IntervalEvents(ivs)).value.0.counter == 0
    decreases |ivs|
  {
    if |ivs| > 0 {
      var iv := ivs[0];
      var evs := IntervalEvents(ivs);
      var t1 := Start(t, iv.begin);
      var t2 := Stop(t1, iv.first, iv.second).value;
      assert evs[0] == StartAt(iv.begin);
      assert evs[1..][0] == StopAt(iv.first, iv.second);
      assert evs[1..][1..] == IntervalEvents(ivs[1..]);
      IntervalsAccumulate(t2, ivs[1..]);
    }
  }

  /** The events of a run with its reports left out. */
  function WithoutReports(events: seq<TimerEvent>): (r: seq<TimerEvent>)
    ensures forall i :: 0 <= i < |r| ==> !r[i].ReportAt?
    ensures |r| <= |events|
    decreases |events|
  {
    if |events| == 0 then []
    else if events[0].ReportAt? then WithoutReports(events[1..])
    else [events[0]] + WithoutReports(events[1..])
  }

  /** Start and stop neither read nor write the last reported value. */
  lemma StepIgnoresLastValue(t: Timer, e: TimerEvent, last: int)
    requires !e.ReportAt? && Step(t, e).Ok?
    ensures Step(t.(lastValue := last), e) == Ok(Step(t, e).value.(lastValue := last))
  {
  }

  /** Reports that do not abort leave the accumulation alone: a run ends in
      the same timer as the same run with its reports left out, except for
      the last reported value. */
  lemma {:induction false} ReportsDoNotDisturbAccumulation(t: Timer, events: seq<TimerEvent>, last: int)
    requires Run(t, events).Ok?
    ensures Run(t.(lastValue := last), WithoutReports(events)).Ok?
    ensures Run(t.(lastValue := last), WithoutReports(events)).value.0
         == Run(t, events).value.0.(lastValue := last)
    decreases |events|
  {
    if |events| > 0 {
      var e := events[0];
      var t1 := Step(t, e).value;
      ReportsDoNotDisturbAccumulation(t1, events[1..], last);
      if e.ReportAt? {
        assert t1.(lastValue := last) == t.(lastValue := last);
      } else {
        StepIgnoresLastValue(t, e, last);
        var stripped := WithoutReports(events);
        assert stripped[0] == e;
        assert stripped[1..] == WithoutReports(events[1..]);
      }
    }
  }

  /** Closed intervals add up regardless of the reports interleaved with
      them, as long as none of those reports aborts. */
  lemma IntervalsAccumulateAcrossReports(t: Timer, events: seq<TimerEvent>, ivs: seq<Interval>)
    requires t.counter == 0
    requires forall i :: 0 <= i < |ivs| ==> ivs[i].begin <= ivs[i].first
    requires WithoutReports(events) == IntervalEvents(ivs)
    requires Run(t, events).Ok?
    ensures Run(t, events).value.0.total == t.total + Elapsed(ivs)
    ensures Run(t, events).value.0.counter == 0
  {
    ReportsDoNotDisturbAccumulation(t, events, t.lastValue);
    assert t.(lastValue := t.lastValue) == t;
    IntervalsAccumulate(t, ivs);
  }
}

=== FILE: trace.dfy ===
/** Trace records and the channel they are written to: the framer of
    DYNINSTgenerateTraceRecord, with its word alignment of the payload and
    the "pipe gone" latch that a failed write sets for good. */
module Trace {
  import opened Basics
  import opened Arith

  /** Sizes the headers fix: the machine word, the stream id, the record
      header and each record body. Their values are not part of this model;
      each is at least one byte. */
  datatype Layout = Layout(
    wordSize: Positive,
    streamIdSize: Positive,
    headerSize: Positive,
    sampleSize: Positive,
    costSize: Positive,
    forkSize: Positive,
    resourceSize: Positive,
    exitSize: Positive)

  /** ALIGN_TO_WORDSIZE: n rounded up to a multiple of the word size. */
  function AlignUp(n: nat, w: Positive): (r: nat)
    ensures r % w == 0
    ensures n <= r < n + w
    ensures n % w == 0 ==> r == n
  {
    if n % w == 0 then n
    else
      var q := n / w;
      assert n == q * w + n % w;
      MultipleMod(q + 1, w);
      assert n + (w - n % w) == (q + 1) * w;
      n + (w - n % w)
  }

  /** No smaller multiple of the word size covers n: AlignUp is the least one. */
  lemma AlignUpIsLeast(n: nat, w: Positive, m: nat)
    requires m % w == 0 && n <= m
    ensures AlignUp(n, w) <= m
  {
    var r := AlignUp(n, w);
    var a := m / w;
    var b := r / w;
    assert m == a * w;
    assert r == b * w;
    if r > m {
      var d := b - a;
      assert d * w == r - m;
      assert d >= 1;
      MulAtLeast(d, w);
    }
  }

  datatype RecordType = TrSample | TrCostUpdate | TrFork | TrNewResource | TrExit

  /** The integer fields of the exit summary. */
  datatype ExitStats = ExitStats(
    alarms: int,
    numReported: int,
    samplesReported: int,
    totalCpuTime: int,
    totalWallTime: int,
    handlerCost: int,
    samplingInterval: int,
    userTicks: int,
    instTicks: int)

  /** Record bodies. A sample carries its raw value and the divisor the
      monitor sees it scaled by; a cost update carries the pause time in
      microseconds. */
  datatype Payload =
    | SampleBody(id: int, raw: int, divisor: int)
    | CostBody(slotsExecuted: int, pauseTime: int)
    | ForkBody(ppid: int, pid: int, npids: int, stride: int)
    | ResourceBody(name: string, abstraction: string)
    | ExitBody(stats: ExitStats)

  function TypeOf(p: Payload): (t: RecordType) {
    match p
    case SampleBody(_, _, _) => TrSample
    case CostBody(_, _) => TrCostUpdate
    case ForkBody(_, _, _, _) => TrFork
    case ResourceBody(_, _) => TrNewResource
    case ExitBody(_) => TrExit
  }

  /** sizeof the body's struct. */
  function BodySize(layout: Layout, p: Payload): (size: Positive) {
    match p
    case SampleBody(_, _, _) => layout.sampleSize
    case CostBody(_, _) => layout.costSize
    case ForkBody(_, _, _, _) => layout.forkSize
    case ResourceBody(_, _) => layout.resourceSize
    case ExitBody(_) => layout.exitSize
  }

  /** The header: wall time since the agent's wall origin, process time,
      record type and the stored (word-aligned) body length. */
  datatype TraceHeader = TraceHeader(wall: int, process: int, rtype: RecordType, length: nat)

  datatype Frame = Frame(stream: int, header: TraceHeader, body: Payload)

  /** What one write meets: the clock readings the header takes and whether fwrite succeeded. */
  datatype WriteEnv = WriteEnv(stamp: Clocks, ok: bool)

  /** The output channel: whether it has been opened, whether a failed write
      has disabled it, and the records it has accepted, in order. */
  datatype Channel = Channel(open: bool, gone: bool, sent: seq<Frame>)

  /** The record a call frames. */
  function FrameFor(layout: Layout, startWall: int, sid: int, body: Payload, stamp: Clocks): (f: Frame)
    ensures f.stream == sid && f.body == body && f.header.rtype == TypeOf(body)
    ensures f.header.length % layout.wordSize == 0
    ensures BodySize(layout, body) <= f.header.length < BodySize(layout, body) + layout.wordSize
    ensures f.header.wall == stamp.wall - startWall && f.header.process == stamp.cpu
  {
    Frame(sid, TraceHeader(stamp.wall - startWall, stamp.cpu, TypeOf(body),
                           AlignUp(BodySize(layout, body), layout.wordSize)), body)
  }

  /** One call of the framer. A gone channel ignores it. Otherwise the
      channel is (re)opened and the record is either accepted or, when the
      write fails, dropped and the channel latched gone. */
  function Generate(ch: Channel, layout: Layout, startWall: int, sid: int, body: Payload, env: WriteEnv): (r: Channel)
    ensures ch.gone ==> r == ch
    ensures !ch.gone ==> r.open
    ensures !ch.gone && env.ok ==>
      !r.gone && r.sent == ch.sent + [FrameFor(layout, startWall, sid, body, env.stamp)]
    ensures !ch.gone && !env.ok ==> r.gone && r.sent == ch.sent
    ensures ch.gone ==> r.gone
  {
    if ch.gone then ch
    else
      var live := ch.(open := true);
      if env.ok then live.(sent := ch.sent + [FrameFor(layout, startWall, sid, body, env.stamp)])
      else live.(gone := true)
  }

  /** The frames a series of calls would produce if every write succeeded. */
  function IntendedFrames(layout: Layout, startWall: int, sid: int, bodies: seq<Payload>, env: nat -> WriteEnv): (fs: seq<Frame>)
    ensures |fs| == |bodies|
    ensures forall i :: 0 <= i < |bodies| ==> fs[i] == FrameFor(layout, startWall, sid, bodies[i], env(i).stamp)
  {
    seq(|bodies|, i requires 0 <= i < |bodies| => FrameFor(layout, startWall, sid, bodies[i], env(i).stamp))
  }

  /** Framer calls for several bodies in order; env(i) is what the i-th write meets. */
  function GenerateAll(ch: Channel, layout: Layout, startWall: int, sid: int, bodies: seq<Payload>, env: nat -> WriteEnv): (r: Channel)
    decreases |bodies|
  {
    if |bodies| == 0 then ch
    else GenerateAll(Generate(ch, layout, startWall, sid, bodies[0], env(0)), layout, startWall, sid, bodies[1..],
                     (i: nat) => env(i + 1))
  }

  lemma IntendedFramesShift(layout: Layout, startWall: int, sid: int, bodies: seq<Payload>, env: nat -> WriteEnv)
    requires |bodies| > 0
    ensures IntendedFrames(layout, startWall, sid, bodies[1..], (i: nat) => env(i + 1))
         == IntendedFrames(layout, startWall, sid, bodies, env)[1..]
  {
    var env1: nat -> WriteEnv := (i: nat) => env(i + 1);
    var a := IntendedFrames(layout, startWall, sid, bodies[1..], env1);
    var b := IntendedFrames(layout, startWall, sid, bodies, env)[1..];
    forall i | 0 <= i < |a|
      ensures a[i] == b[i]
    {
      assert env1(i) == env(i + 1);
    }
  }

  /** A gone channel ignores every later call. */
  lemma {:induction false} GenerateAllOnGone(ch: Channel, layout: Layout, startWall: int, sid: int,
                                             bodies: seq<Payload>, env: nat -> WriteEnv)
    requires ch.gone
    ensures GenerateAll(ch, layout, startWall, sid, bodies, env) == ch
    decreases |bodies|
  {
    if |bodies| > 0 {
      GenerateAllOnGone(ch, layout, startWall, sid, bodies[1..], (i: nat) => env(i + 1));
    }
  }

  lemma PrefixAfterSend(before: seq<Frame>, intended: seq<Frame>, after: seq<Frame>)
    requires |intended| > 0
    requires |before| + 1 <= |after| <= |before| + 1 + |intended[1..]|
    requires after == (before + [intended[0]]) + intended[1..][..|after| - (|before| + 1)]
    ensures after == before + intended[..|after| - |before|]
  {
    var n := |after| - (|before| + 1);
    assert intended[..n + 1] == [intended[0]] + intended[1..][..n];
  }

  /** A series of calls appends a prefix of the frames it would produce if
      every write succeeded, and nothing else. */
  lemma {:induction false} GenerateAllAppendsPrefix(ch: Channel, layout: Layout, startWall: int, sid: int,
                                                    bodies: seq<Payload>, env: nat -> WriteEnv)
    ensures var r := GenerateAll(ch, layout, startWall, sid, bodies, env);
      && |ch.sent| <= |r.sent| <= |ch.sent| + |bodies|
      && r.sent == ch.sent + IntendedFrames(layout, startWall, sid, bodies, env)[..|r.sent| - |ch.sent|]
    decreases |bodies|
  {
    if |bodies| > 0 {
      var intended := IntendedFrames(layout, startWall, sid, bodies, env);
      var ch1 := Generate(ch, layout, startWall, sid, bodies[0], env(0));
      var env1: nat -> WriteEnv := (i: nat) => env(i + 1);
      GenerateAllAppendsPrefix(ch1, layout, startWall, sid, bodies[1..], env1);
      var r := GenerateAll(ch1, layout, startWall, sid, bodies[1..], env1);
      IntendedFramesShift(layout, startWall, sid, bodies, env);
      assert GenerateAll(ch, layout, startWall, sid, bodies, env) == r;
      if !ch.gone && env(0).ok {
        PrefixAfterSend(ch.sent, intended, r.sent);
      } else {
        assert ch1.gone && ch1.sent == ch.sent;
        GenerateAllOnGone(ch1, layout, startWall, sid, bodies[1..], env1);
        assert intended[..0] == [];
      }
    }
  }

  /** On a live channel, a series of calls leaves the channel gone exactly
      when one of its writes failed. */
  lemma {:induction false} GenerateAllGoneIffFailure(ch: Channel, layout: Layout, startWall: int, sid: int,
                                                     bodies: seq<Payload>, env: nat -> WriteEnv)
    requires !ch.gone
    ensures GenerateAll(ch, layout, startWall, sid, bodies, env).gone <==> exists i :: 0 <= i < |bodies| && !env(i).ok
    decreases |bodies|
  {
    if |bodies| > 0 {
      var ch1 := Generate(ch, layout, startWall, sid, bodies[0], env(0));
      var env1: nat -> WriteEnv := (i: nat) => env(i + 1);
      var r := GenerateAll(ch1, layout, startWall, sid, bodies[1..], env1);
      assert GenerateAll(ch, layout, startWall, sid, bodies, env) == r;
      if env(0).ok {
        GenerateAllGoneIffFailure(ch1, layout, startWall, sid, bodies[1..], env1);
        if r.gone {
          var j :| 0 <= j < |bodies| - 1 && !env1(j).ok;
          assert !env(j + 1).ok;
        } else {
          forall i | 0 <= i < |bodies|
            ensures env(i).ok
          {
            if i > 0 {
              assert env1(i - 1).ok;
            }
          }
        }
      } else {
        GenerateAllOnGone(ch1, layout, startWall, sid, bodies[1..], env1);
      }
    }
  }

  /** On a live channel that stays live, every call adds one record. */
  lemma {:induction false} GenerateAllCountsRecords(ch: Channel, layout: Layout, startWall: int, sid: int,
                                                    bodies: seq<Payload>, env: nat -> WriteEnv)
    ensures var r := GenerateAll(ch, layout, startWall, sid, bodies, env);
      !r.gone ==> |r.sent| == |ch.sent| + |bodies|
    decreases |bodies|
  {
    if |bodies| > 0 {
      var env1: nat -> WriteEnv := (i: nat) => env(i + 1);
      var ch1 := Generate(ch, layout, startWall, sid, bodies[0], env(0));
      GenerateAllCountsRecords(ch1, layout, startWall, sid, bodies[1..], env1);
      assert GenerateAll(ch, layout, startWall, sid, bodies, env)
          == GenerateAll(ch1, layout, startWall, sid, bodies[1..], env1);
      if ch1.gone {
        GenerateAllOnGone(ch1, layout, startWall, sid, bodies[1..], env1);
      }
    }
  }

  /** On a live channel every record is sent when every write succeeds. */
  lemma GenerateAllSendsAll(ch: Channel, layout: Layout, startWall: int, sid: int,
                            bodies: seq<Payload>, env: nat -> WriteEnv)
    requires !ch.gone
    requires forall i :: 0 <= i < |bodies| ==> env(i).ok
    ensures var r := GenerateAll(ch, layout, startWall, sid, bodies, env);
      !r.gone && r.sent == ch.sent + IntendedFrames(layout, startWall, sid, bodies, env)
  {
    var r := GenerateAll(ch, layout, startWall, sid, bodies, env);
    var intended := IntendedFrames(layout, startWall, sid, bodies, env);
    GenerateAllGoneIffFailure(ch, layout, startWall, sid, bodies, env);
    GenerateAllCountsRecords(ch, layout, startWall, sid, bodies, env);
    GenerateAllAppendsPrefix(ch, layout, startWall, sid, bodies, env);
    assert intended[..|bodies|] == intended;
  }
}

=== FILE: wire.dfy ===
/** The byte layout the framer builds in its buffer: stream id, header,
    padding up to a word boundary, then the payload copied for its
    word-aligned length. A reader that learns each payload length from the
    header recovers every record of a stream. The encodings of the stream id
    and of the header are not part of this model; they appear as byte strings
    of the layout's sizes. */
module Wire {
  import opened Basics
  import opened Arith
  import opened Trace

  function Zeros(n: nat): (z: seq<Byte>)
    ensures |z| == n
    ensures forall i :: 0 <= i < n ==> z[i] == 0
  {
    seq(n, _ => 0)
  }

  lemma SumOfMultiples(a: nat, b: nat, w: Positive)
    requires a % w == 0 && b % w == 0
    ensures (a + b) % w == 0
  {
    assert a == (a / w) * w;
    assert b == (b / w) * w;
    assert a + b == (a / w + b / w) * w;
    MultipleMod(a / w + b / w, w);
  }

  /** Offset of the payload: stream id and header, rounded up to a word. */
  function PayloadOffset(layout: Layout): (p: nat)
    ensures p % layout.wordSize == 0
    ensures layout.streamIdSize + layout.headerSize <= p
  {
    AlignUp(layout.streamIdSize + layout.headerSize, layout.wordSize)
  }

  /** The bytes of one record. The buffer bytes between the header and the
      payload are never written by the framer; here they are zero. */
  function Encode(layout: Layout, sid: seq<Byte>, header: seq<Byte>, data: seq<Byte>, length: nat): (r: seq<Byte>)
    requires |sid| == layout.streamIdSize && |header| == layout.headerSize
    requires AlignUp(length, layout.wordSize) <= |data|
    ensures |r| == PayloadOffset(layout) + AlignUp(length, layout.wordSize)
    ensures |r| % layout.wordSize == 0
    ensures r[..|sid|] == sid
    ensures r[|sid|..|sid| + |header|] == header
    ensures r[PayloadOffset(layout)..] == data[..AlignUp(length, layout.wordSize)]
  {
    var gap := PayloadOffset(layout) - (|sid| + |header|);
    var r := sid + header + Zeros(gap) + data[..AlignUp(length, layout.wordSize)];
    assert r[..|sid|] == sid;
    assert r[|sid|..|sid| + |header|] == header;
    SumOfMultiples(PayloadOffset(layout), AlignUp(length, layout.wordSize), layout.wordSize);
    r
  }

  /** What a reader takes out of one record. */
  datatype Decoded = Decoded(sid: seq<Byte>, header: seq<Byte>, payload: seq<Byte>)

  /** Reads one record off the front of `bytes`; `lengthOf` extracts the
      stored payload length from header bytes. None when the bytes run out. */
  function DecodeOne(layout: Layout, bytes: seq<Byte>, lengthOf: seq<Byte> -> nat): (r: Option<(Decoded, seq<Byte>)>)
    ensures r.Some? ==> |r.value.1| < |bytes|
  {
    var s := layout.streamIdSize;
    var h := layout.headerSize;
    var p := PayloadOffset(layout);
    if |bytes| < p then None
    else
      var header := bytes[s..s + h];
      var len := lengthOf(header);
      if |bytes| < p + len then None
      else Some((Decoded(bytes[..s], header, bytes[p..p + len]), bytes[p + len..]))
  }

  /** Reads records until the bytes are used up. */
  function DecodeAll(layout: Layout, bytes: seq<Byte>, lengthOf: seq<Byte> -> nat): (r: Option<seq<Decoded>>)
    decreases |bytes|
  {
    if |bytes| == 0 then Some([])
    else
      match DecodeOne(layout, bytes, lengthOf)
      case None => None
      case Some(first) =>
        match DecodeAll(layout, first.1, lengthOf)
        case None => None
        case Some(rest) => Some([first.0] + rest)
  }

  /** One record as handed to the framer. */
  datatype WireRecord = WireRecord(sid: seq<Byte>, header: seq<Byte>, data: seq<Byte>, length: nat)

  /** A record the framer can lay out, whose header states its stored
      (aligned) length the way `lengthOf` reads it. */
  predicate WellFormed(layout: Layout, lengthOf: seq<Byte> -> nat, rec: WireRecord) {
    && |rec.sid| == layout.streamIdSize
    && |rec.header| == layout.headerSize
    && AlignUp(rec.length, layout.wordSize) <= |rec.data|
    && lengthOf(rec.header) == AlignUp(rec.length, layout.wordSize)
  }

  function EncodeAll(layout: Layout, lengthOf: seq<Byte> -> nat, recs: seq<WireRecord>): (r: seq<Byte>)
    requires forall i :: 0 <= i < |recs| ==> WellFormed(layout, lengthOf, recs[i])
    decreases |recs|
  {
    if |recs| == 0 then []
    else
      assert WellFormed(layout, lengthOf, recs[0]);
      Encode(layout, recs[0].sid, recs[0].header, recs[0].data, recs[0].length)
        + EncodeAll(layout, lengthOf, recs[1..])
  }

  /** What the reader should recover from a record. */
  function Expected(layout: Layout, rec: WireRecord): (d: Decoded)
    requires AlignUp(rec.length, layout.wordSize) <= |rec.data|
  {
    Decoded(rec.sid, rec.header, rec.data[..AlignUp(rec.length, layout.wordSize)])
  }

  /** One record followed by anything reads back as itself, leaving the rest. */
  lemma DecodeOneEncode(layout: Layout, lengthOf: seq<Byte> -> nat, rec: WireRecord, rest: seq<Byte>)
    requires WellFormed(layout, lengthOf, rec)
    ensures DecodeOne(layout, Encode(layout, rec.sid, rec.header, rec.data, rec.length) + rest, lengthOf)
         == Some((Expected(layout, rec), rest))
  {
    var e := Encode(layout, rec.sid, rec.header, rec.data, rec.length);
    var bytes := e + rest;
    var s := layout.streamIdSize;
    var h := layout.headerSize;
    var p := PayloadOffset(layout);
    var len := AlignUp(rec.length, layout.wordSize);
    assert bytes[..s] == e[..s];
    assert bytes[s..s + h] == e[s..s + h];
    assert bytes[p..p + len] == e[p..];
    assert bytes[p + len..] == rest;
  }

  /** The byte stream of any sequence of records reads back, record by
      record, as the stream ids, headers and aligned payloads written. */
  lemma {:induction false} StreamRoundTrip(layout: Layout, lengthOf: seq<Byte> -> nat, recs: seq<WireRecord>)
    requires forall i :: 0 <= i < |recs| ==> WellFormed(layout, lengthOf, recs[i])
    ensures var d := DecodeAll(layout, EncodeAll(layout, lengthOf, recs), lengthOf);
      && d.Some? && |d.value| == |recs|
      && forall i :: 0 <= i < |recs| ==> d.value[i] == Expected(layout, recs[i])
    decreases |recs|
  {
    if |recs| > 0 {
      var first := Encode(layout, recs[0].sid, recs[0].header, recs[0].data, recs[0].length);
      var rest := EncodeAll(layout, lengthOf, recs[1..]);
      assert EncodeAll(layout, lengthOf, recs) == first + rest;
      DecodeOneEncode(layout, lengthOf, recs[0], rest);
      StreamRoundTrip(layout, lengthOf, recs[1..]);
      var d := DecodeAll(layout, first + rest, lengthOf);
      var d1 := DecodeAll(layout, rest, lengthOf);
      assert d.value == [Expected(layout, recs[0])] + d1.value;
    }
  }

  /** A stream is its first record followed by the stream of the rest. */
  lemma EncodeAllCons(layout: Layout, lengthOf: seq<Byte> -> nat, recs: seq<WireRecord>)
    requires |recs| > 0
    requires forall j :: 0 <= j < |recs| ==> WellFormed(layout, lengthOf, recs[j])
    ensures forall j :: 0 <= j < |recs| - 1 ==> WellFormed(layout, lengthOf, recs[1..][j])
    ensures EncodeAll(layout, lengthOf, recs)
         == Encode(layout, recs[0].sid, recs[0].header, recs[0].data, recs[0].length)
            + EncodeAll(layout, lengthOf, recs[1..])
  {
    assert forall j :: 0 <= j < |recs| - 1 ==> recs[1..][j] == recs[j + 1];
  }

  /** A stream of records is a whole number of words long, so every record
      of it starts at a word-aligned offset. */
  lemma {:induction false} StreamIsWordAligned(layout: Layout, lengthOf: seq<Byte> -> nat, recs: seq<WireRecord>)
    requires forall j :: 0 <= j < |recs| ==> WellFormed(layout, lengthOf, recs[j])
    ensures |EncodeAll(layout, lengthOf, recs)| % layout.wordSize == 0
    decreases |recs|
  {
    if |recs| > 0 {
      EncodeAllCons(layout, lengthOf, recs);
      StreamIsWordAligned(layout, lengthOf, recs[1..]);
      var first := |Encode(layout, recs[0].sid, recs[0].header, recs[0].data, recs[0].length)|;
      var rest := |EncodeAll(layout, lengthOf, recs[1..])|;
      assert |EncodeAll(layout, lengthOf, recs)| == first + rest;
      SumOfMultiples(first, rest, layout.wordSize);
    } else {
      assert EncodeAll(layout, lengthOf, recs) == [];
      MultipleMod(0, layout.wordSize);
    }
  }

  /** A record as the framer builds it is well formed whenever the encoding
      of this record's header has the header size and reads back the stored
      length (a fixed-size encoding can only do so for the lengths it can
      hold, so this is asked of the one header at hand): the header carries the
      body size rounded up to a word, which is exactly the length the
      payload is copied for, so a reader recovers the header and that much
      of the body. */
  lemma FramedRecordIsWellFormed(layout: Layout, lengthOf: seq<Byte> -> nat, encodeHeader: TraceHeader -> seq<Byte>,
                                 startWall: int, sid: int, sidBytes: seq<Byte>, body: Payload, data: seq<Byte>,
                                 stamp: Clocks, rest: seq<Byte>)
    requires |sidBytes| == layout.streamIdSize
    requires var hdr := FrameFor(layout, startWall, sid, body, stamp).header;
      |encodeHeader(hdr)| == layout.headerSize && lengthOf(encodeHeader(hdr)) == hdr.length
    requires AlignUp(BodySize(layout, body), layout.wordSize) <= |data|
    ensures var f := FrameFor(layout, startWall, sid, body, stamp);
      var rec := WireRecord(sidBytes, encodeHeader(f.header), data, BodySize(layout, body));
      && WellFormed(layout, lengthOf, rec)
      && DecodeOne(layout, Encode(layout, rec.sid, rec.header, rec.data, rec.length) + rest, lengthOf)
         == Some((Decoded(sidBytes, encodeHeader(f.header), data[..f.header.length]), rest))
  {
    var f := FrameFor(layout, startWall, sid, body, stamp);
    var n := BodySize(layout, body);
    var w := layout.wordSize;
    AlignUpIsLeast(n, w, f.header.length);
    var d := f.header.length - AlignUp(n, w);
    ResidueDifference(f.header.length, AlignUp(n, w), w);
    SmallMultipleIsZero(d, w);
    var rec := WireRecord(sidBytes, encodeHeader(f.header), data, n);
    DecodeOneEncode(layout, lengthOf, rec, rest);
  }

  /** The header encoding of the instance below: the first byte is the stored length. */
  function FirstByte(b: seq<Byte>): (n: nat)
    ensures |b| > 0 ==> n == b[0]
  {
    if |b| > 0 then b[0] else 0
  }

  /** An instance the framing lemma applies to: eight-byte words, a 12-byte
      sample body, and a one-byte header that carries the stored length.
      The framer stores 16, and a reader takes the record off the front of
      the stream with all 16 payload bytes. */
  lemma SampleRecordDecodes(layout: Layout, sidBytes: seq<Byte>, data: seq<Byte>, stamp: Clocks, rest: seq<Byte>)
    requires layout.wordSize == 8 && layout.sampleSize == 12 && layout.headerSize == 1
    requires |sidBytes| == layout.streamIdSize && |data| == 16
    ensures DecodeOne(layout, Encode(layout, sidBytes, [16], data, 12) + rest, FirstByte)
            == Some((Decoded(sidBytes, [16], data), rest))
  {
    var body := SampleBody(1, 2, 1);
    var f := FrameFor(layout, 0, 7, body, stamp);
    assert f.header.length == 16 by {
      AlignUpIsLeast(12, 8, 16);
    }
    FramedRecordIsWellFormed(layout, FirstByte, _ => [16], 0, 7, sidBytes, body, data, stamp, rest);
    assert data[..16] == data;
  }
}
